=== FILE: README.md ===
# chattyfast in Dafny

A model of the sequential core of chattyfast, a Django and Channels chat
application. Users register and sign in, find each other by user name and
exchange messages through a WebSocket relay. Every message is stored
RSA-encrypted and framed as base 64 text.

The model is one functional state machine:

- **Database.** `Models.Db` holds the three tables of `chat/models.py` (users,
  rooms and messages) in primary-key order. It also holds the next key of each
  table and an abstract clock.
- **Channel layer.** `Groups.Layer` holds the group registry and the per-channel
  inboxes of the channel layer.
- **Transitions.** Every view, consumer handler and cipher operation is a pure
  function. It returns the next state and an outcome.
- **Exceptions.** A Python exception becomes an `Errors.Error` value. A Django
  `.get()` becomes a `Models.Lookup`: none, exactly one, or several rows.
  MultipleObjectsReturned escapes wherever the code only catches DoesNotExist.

Modules, one per component:

- `Results`, `Bytes`, `Errors`: `Option`, `Result`, octets, exception kinds.
- `Utf8`: strict UTF-8, as `str.encode` and `bytes.decode` use it.
- `Base64`: the padded alphabet of section 4 of RFC 4648.
- `Crypt`: `crypto/crypt.py`. The RSA primitive is an abstract `KeyPair`. It
  may refuse plaintext longer than k - 11 = 245 octets (section 7.2.1 of
  RFC 8017).
- `Tokens`: `create_token` and the token alphabet.
- `Models`: the tables, row operations, cascades and the database invariant
  `Valid`.
- `Groups`: `group_add`, `group_discard`, `group_send`.
- `Consumers`: `ChatConsumer`.
- `Sessions`: the session's `'token'` entry.
- `Utils`: `chat/utils.py`.
- `Accounts`: `login` and `index`.
- `Rooms`: `get_or_create_room`, `search_user`, `get_user_chat_rooms` and
  `get_room_messages`.

Parameters stand for what cannot be modelled directly:

- The key pair is a parameter.
- Each clock reading is an advance `dt` added to the database clock.
- The random choices of `secrets.choice` are a sequence of picks.
- The three `create_token()` calls of one login request are the fields of
  `Accounts.Fresh`. Each is a string `create_token` can return
  (`Accounts.Drawn`), and `Accounts.FreshTokens` draws all three from picks.

## Model

| member | source | states |
|---|---|---|
| `Utf8.Encode` | crypto/crypt.py:71 | Every character becomes one to four octets, so the encoding is at least as long as the text and at most four times as long. |
| `Utf8.DecodeChar` | crypto/crypt.py:87 | A decoded head sequence is one to four octets long and lies within the input. |
| `Utf8.Decode` | crypto/crypt.py:87 | Accepted octets decode to at most one character per octet, and only the empty input decodes to the empty text. |
| `Utf8.DecodeEncode` | crypto/crypt.py:71-87 | Strict decoding inverts encoding for every string. |
| `Utf8.EncodeDecode` | crypto/crypt.py:87 | Whatever strict decoding accepts is the encoding of its result, so the decoder is injective. |
| `Base64.ValueOf` | crypto/crypt.py:117 | A character has a sextet value only if it is in the alphabet, and that value maps back to the character. |
| `Base64.Encode` | crypto/crypt.py:103 | The text is 4 * ceil(n/3) characters long. Everything before the last two characters is alphabet. |
| `Base64.EncodeIsPadded` | crypto/crypt.py:103-104 | Encoded text is canonical padded base 64: its length is a multiple of 4, it uses only alphabet characters, and '=' appears only at the end. |
| `Base64.DecodeEncode` | crypto/crypt.py:103-117 | Decoding the encoding of any octet string gives it back. |
| `Base64.EncodeDecode` | crypto/crypt.py:117 | Whatever the decoder accepts is the encoding of what it returns, and it decodes to nothing only when the text is empty. |
| `Base64.Decode` | crypto/crypt.py:117 | Accepted text of n characters gives between 3n/4 - 2 and 3n/4 octets. |
| `Base64.DecodeRefusesRaggedLength` | crypto/crypt.py:117 | Text whose length is not a multiple of 4 is refused. |
| `Crypt.EncryptRsa` | crypto/crypt.py:60-71 | Fails with OverflowError if and only if the UTF-8 form exceeds 245 octets. Otherwise, under a sound key, the result is a 256-octet ciphertext the private key opens to the UTF-8 form. |
| `Crypt.DecryptRsa` | crypto/crypt.py:74-89 | Never raises. It gives `False` (Refused) exactly when the primitive refuses or the octets are not UTF-8. A recovered text is exactly the one whose UTF-8 the primitive returned. |
| `Crypt.Encrypt` | crypto/crypt.py:92-104 | Fails only over capacity, and that failure propagates. A success is padded base 64 text, 344 characters under a sound key. |
| `Crypt.Decrypt` | crypto/crypt.py:107-122 | Raises if and only if the text is not base 64. Otherwise the result is non-empty: the recovered text when that is non-empty, else the placeholder. |
| `Crypt.DecryptEncrypt` | crypto/crypt.py:92-122 | A non-empty message within capacity reads back unchanged. |
| `Crypt.EmptyReadsAsPlaceholder` | crypto/crypt.py:119-122 | The empty message encrypts, but reads back as "Could not decrypt the message.". |
| `Crypt.DecryptedTextWasSealed` | crypto/crypt.py:117-120 | Any reading other than the placeholder is the text whose UTF-8 the private key recovered from the decoded ciphertext. |
| `Crypt.LongMessageRaises` | crypto/crypt.py:71 | A message of more than 245 characters raises OverflowError. |
| `Crypt.RaggedTextRaises` | crypto/crypt.py:117-118 | Stored text of ragged length raises instead of reading as the placeholder. |
| `Tokens.Draw` | chat/views.py:128 | One alphanumeric character per pick. |
| `Tokens.CreateToken` | chat/views.py:124-129 | A token is exactly 32 characters, each an ASCII letter or digit. |
| `Tokens.EveryTokenCanBeDrawn` | chat/views.py:127-128 | Every 32-character alphanumeric string is a possible token, so the shape is all that is promised. |
| `Tokens.IndexOf` | chat/views.py:127 | Each alphabet character has a position that gives it back. |
| `Models.Get` | chat/consumers.py:139-142 | Models Django `.get()`. NotFound if and only if no row matches. Multiple if and only if two rows match. Found gives a matching row of the table. |
| `Models.Filter` | chat/views.py:149-151 | A query holds exactly the matching rows of the table. |
| `Models.FilterKeepsOrder` | chat/views.py:325 | A query keeps every order that holds along the table. |
| `Models.Last` | chat/views.py:155 | `.last()` of a query is None exactly when the query is empty, and otherwise its final row. |
| `Models.LastMessageIsNewest` | chat/views.py:269 | In a valid database the last of a room's messages has the largest key among them. |
| `Models.EmptyIsValid` | chat/models.py:4-30 | An empty database satisfies the invariant. |
| `Models.CreateUser` | chat/models.py:4-10 | A NULL argument raises IntegrityError. Otherwise exactly one user is appended, each field holding its argument or '0' when the argument is omitted. |
| `Models.CreateUserKeepsValid` | chat/models.py:4-10 | Creating a user keeps the invariant and rewrites no row. |
| `Models.SetToken` | chat/views.py:95-96 | Only the token of the row with that key changes. |
| `Models.SetTokenKeepsValid` | chat/views.py:95-96 | Saving a token keeps the invariant. |
| `Models.GenerateToken` | chat/models.py:12-17 | Each row with that key gets one 32-character alphanumeric token and keeps every other field. Every other user, the other tables, the counters and the clock are unchanged. |
| `Models.GenerateTokenKeepsValid` | chat/models.py:12-17 | Issuing a token keeps the invariant and loses no row. |
| `Models.AddRoom` | chat/models.py:20-23 | A new room is appended with the next key, stamped once with the creation time. |
| `Models.AddRoomKeepsValid` | chat/models.py:20-23 | Adding a room keeps the invariant and rewrites no earlier room. |
| `Models.AddMessage` | chat/models.py:26-30 | A new message is appended with the next key, stamped once with the creation time. |
| `Models.AddMessageKeepsValid` | chat/models.py:26-30 | Adding a message whose room and sender exist keeps the invariant: both keys resolve, and timestamps stay in order and fixed. |
| `Models.AdvanceKeepsValid` | chat/models.py:23-30 | Clock progress rewrites no row. |
| `Models.DuplicateRoomsAreValid` | chat/models.py:20-22 | Two rooms with the same participants are allowed by the invariant: no uniqueness is declared. |
| `Models.DeleteUser` | chat/models.py:28 | Deleting a user removes exactly that user and the messages it sent. |
| `Models.DeleteUserKeepsValid` | chat/models.py:28 | The cascade leaves no message pointing at a missing user. |
| `Models.DeleteRoom` | chat/models.py:27 | Deleting a room removes exactly that room and its messages. |
| `Models.DeleteRoomKeepsValid` | chat/models.py:27 | The cascade leaves no message pointing at a missing room. |
| `Groups.GroupAdd` | chat/consumers.py:26-29 | The channel joins that group. Other groups and all inboxes are unchanged, and no empty group appears. |
| `Groups.GroupDiscard` | chat/consumers.py:42-45 | The channel leaves that group, and only that group. An emptied group is removed. |
| `Groups.GroupSend` | chat/consumers.py:68-76 | Each member's inbox gets the event once. No other inbox and no group changes. |
| `Groups.DiscardUndoesAdd` | chat/consumers.py:26-45 | Leaving undoes joining for a channel that was not yet a member. |
| `Groups.AddAndDiscardIdempotent` | chat/consumers.py:26-45 | Joining twice is joining once, and leaving twice is leaving once. |
| `Consumers.GroupName` | chat/consumers.py:24 | The group is "chat_" followed by the room name, five characters longer. |
| `Consumers.GroupNameInjective` | chat/consumers.py:24 | Different rooms have different groups. |
| `Consumers.Connect` | chat/consumers.py:12-31 | TypeError if and only if the group name is one the channel layer refuses: 100 characters or more, or a character outside ASCII letters, decimal digits of any script, '-', '_' and '.' other than one final newline. Otherwise the connection joins the room's group and nothing else changes. |
| `Consumers.ConnectAcceptsShortNames` | chat/routing.py:7 | A non-empty room name made only of characters the layer accepts, such as ASCII letters, digits of any script and '_', connects if and only if it has fewer than 95 characters. |
| `Consumers.ConnectAcceptsArabicIndicDigits` | chat/routing.py:7 | A room named with the Arabic-Indic digits one and two, which the route admits, connects. |
| `Consumers.ConnectRefusesForeignCharacters` | chat/routing.py:7 | A room name holding a character outside the layer's class, such as an accented letter that the route admits, never connects, unless that character is a newline at the very end. |
| `Consumers.Disconnect` | chat/consumers.py:33-45 | The connection leaves its group whatever the close code. Other members stay. |
| `Consumers.DisconnectUndoesConnect` | chat/consumers.py:22-45 | A connection with an accepted group name connects, and disconnecting then restores the world. |
| `Consumers.Fields` | chat/consumers.py:61-64 | Non-JSON text raises JSONDecodeError, JSON that is not an object raises TypeError, and a missing key raises KeyError. Otherwise it yields the three values. |
| `Consumers.GetRoom` | chat/consumers.py:102-119 | Yields the room with that key. DoesNotExist if no room has it, MultipleObjectsReturned if several do. |
| `Consumers.FoundRoomHasKey` | chat/consumers.py:119 | A found room's key exists. |
| `Consumers.RoomKeysUnique` | chat/consumers.py:119 | In a valid database no key finds two rooms. |
| `Consumers.RoomFoundByKey` | chat/consumers.py:119 | In a valid database every existing key finds its room. |
| `Consumers.SaveMessage` | chat/consumers.py:121-145 | An unknown sender is swallowed with nothing stored. Two users of that name raise. A known sender gets exactly one new message holding `encrypt(message)` unless encryption raises. |
| `Consumers.SaveMessageKeepsValid` | chat/consumers.py:144-145 | Storing a message keeps the invariant. |
| `Consumers.Receive` | chat/consumers.py:47-76 | A parse failure or missing room raises with the world unchanged. Any exception leaves the world unchanged. On success, users and rooms are unchanged, and each member of the connect-time group gets one event with the payload's text and sender. |
| `Consumers.ReceiveKeepsValid` | chat/consumers.py:47-76 | Receiving keeps the invariant and rewrites no stored row. |
| `Consumers.ChatMessage` | chat/consumers.py:78-100 | The oldest pending event goes to the client with message, sender and timestamp unchanged. No other inbox changes. |
| `Consumers.AbortBeforeEffects` | chat/consumers.py:61-66 | Malformed JSON, a missing key or an unknown room raises before anything is stored or sent. |
| `Consumers.UnknownSenderDeliveredNotStored` | chat/consumers.py:67-76 | An unknown sender's message is stored nowhere, yet every group member receives it. |
| `Consumers.KnownSenderStoredOnce` | chat/consumers.py:144-145 | A non-empty message within capacity, sent by a known sender under a sound key, is stored once, in the payload's room under the sender's key, and decrypts to what was sent. |
| `Consumers.BroadcastTargetFixedAtConnect` | chat/consumers.py:66-75 | Who receives the event does not depend on the payload's room_id. |
| `Consumers.DeliveredFrameIsPayload` | chat/consumers.py:92-100 | The frame a member gets carries the plaintext and the claimed sender unchecked. |
| `Sessions.SessionToken` | chat/views.py:34 | `session['token'][0]`: KeyError when absent, IndexError when empty; otherwise the first element, or the first character of a string. |
| `Sessions.AsText` | chat/utils.py:9 | A session list compares as its printed form, which starts with '['. |
| `Utils.GetUserFromSession` | chat/utils.py:5-13 | A missing or falsy entry gives None. No holder gives None. Otherwise the one user whose token equals the raw value. A truthy entry held by two users raises MultipleObjectsReturned, and nothing else raises. It is a pure read. |
| `Utils.TextSessionFindsHolder` | chat/utils.py:9-10 | A string session finds the one user holding it. |
| `Utils.LoginSessionNeverResolves` | chat/utils.py:6-9 | A list session never matches a generated or default token. |
| `Accounts.Named` | chat/views.py:81-85 | NotFound exactly when the name is missing or no user has it; Multiple exactly when two users have it; otherwise a user of that name. |
| `Accounts.Login` | chat/views.py:49-121 | Sign-in succeeds if and only if the name exists and the passwords are equal; then only the user's token changes, and it and the session hold the same fresh token. Registration of an unused name redirects if and only if name, password and email were sent, appending exactly one user (given fields, fresh token and UID, name '0') and putting another fresh token in the session; a used name gets "User already exists". A name held by two users raises MultipleObjectsReturned; any other failure is the IntegrityError of a registration missing a field. Every other path changes nothing. |
| `Accounts.FreshTokens` | chat/views.py:88-110 | Three successive `create_token` calls give three strings of the token shape, the first being the user's token. |
| `Accounts.Index` | chat/views.py:16-46 | Redirects to /login exactly when there is no entry or no user holds its first element. IndexError is raised exactly when the entry is empty, and MultipleObjectsReturned exactly when two users hold the token. A token held by exactly one user renders that user's page, and any page shown is a holder's. |
| `Accounts.LoginThenIndex` | chat/views.py:90-97 | After signing in, index shows the signed-in user. |
| `Accounts.SoleHolderFound` | chat/views.py:37 | A token written to one user and held by no other finds exactly that user. |
| `Accounts.RegisterThenIndexRedirects` | chat/views.py:102-115 | After registering, index redirects to login, because the session token is not the user's token. |
| `Accounts.LoginSessionUnknownToUtils` | chat/views.py:94 | The session sign-in stores is not resolved by `get_user_from_session`. |
| `Rooms.Digits` | chat/views.py:192-195 | Models the key's decimal digits inside a stored `User` text. |
| `Rooms.DigitsInjective` | chat/views.py:192-195 | Different keys have different digits. |
| `Rooms.ObjectLabel` | chat/views.py:192-195 | A stored `User` is the text "User object (" followed by the key's digits and ")". |
| `Rooms.ObjectLabelInjective` | chat/views.py:192-195 | Different users are stored as different texts. |
| `Rooms.GetOrCreateRoom` | chat/views.py:166-197 | A non-`User` raises TypeError and an unsaved `User` raises ValueError, both before any change. MultipleObjectsReturned is raised exactly when two rooms store the pair. Otherwise the room stores the smaller-id user first and is created only when no such room exists. |
| `Rooms.GetOrCreateRoomSymmetric` | chat/views.py:191-195 | The argument order does not matter. |
| `Rooms.GetOrCreateRoomIdempotent` | chat/views.py:192-195 | Asking again, in either order, returns the same room and creates nothing. |
| `Rooms.FindOrCreate` | chat/views.py:256-266 | Finds a room joining the two names in either order. Only if none exists is `(mine, theirs)` created. |
| `Rooms.PreviewOf` | chat/views.py:269-271 | The preview is empty exactly when the room has no messages. Otherwise it is the decrypted newest message. Non-base-64 text raises. |
| `Rooms.SearchUser` | chat/views.py:228-305 | A non-AJAX or invalid request gets "Invalid request" with no change. A missing searched or signed-in user gets "<name> does not exist", any other failure before the look-up the generic error, both with no change. Once both users are found, the room joining them is found or created, and the answer is that room and the searched user exactly when its newest message is absent or readable, else the generic error. |
| `Rooms.Answer` | chat/views.py:256-288 | The room is the one found or created for the pair; the answer is a hit with its preview exactly when the newest message can be read. |
| `Rooms.SearchRepeatAddsNoRoom` | chat/views.py:256-266 | Searching again changes nothing. |
| `Rooms.SearchFindsEitherOrder` | chat/views.py:256-259 | A room stored in reverse order is found. |
| `Rooms.Entries` | chat/views.py:154-161 | One entry per room with the other participant and its preview. It succeeds exactly when every preview does. |
| `Rooms.SessionUser` | chat/views.py:146 | The one user holding the session's first token. Otherwise the session's KeyError or IndexError, DoesNotExist when no user holds the token, or MultipleObjectsReturned when several do. |
| `Rooms.GetUserChatRooms` | chat/views.py:132-163 | Fails as the session look-up does, or, once the user is found, exactly when some room naming the user has a newest message that cannot be read. Otherwise one entry per such room with the other participant and its preview. |
| `Rooms.ListingIsExactlyTheUsersRooms` | chat/views.py:149-151 | A room is listed if and only if the user is one of its participants. |
| `Rooms.Lines` | chat/views.py:327-331 | Succeeds exactly when every message can be shown, and then gives one line per message, in order. |
| `Rooms.LineOf` | chat/views.py:328-330 | A message shows as its sender's user name, the decrypted text and the time, exactly when the sender is found and the text is base 64. Otherwise DoesNotExist or MultipleObjectsReturned from the sender lookup, which comes first, or the base-64 error. |
| `Rooms.LinesNeverNotFound` | chat/views.py:323-331 | Reading the messages raises only DoesNotExist, MultipleObjectsReturned or the base 64 error, never 404. |
| `Rooms.GetRoomMessages` | chat/views.py:308-334 | Non-GET raises ValueError, and 404 comes exactly when no room has the key. For an existing room it succeeds exactly when every message's sender is found and its text decrypts, giving one line per message with the sender's user name, `decrypt(text)` and the time. |
| `Rooms.HistoryAscending` | chat/views.py:325 | The history is in ascending timestamp order. |
| `Rooms.HistoryReadsBack` | chat/views.py:329 | A non-empty message within capacity, stored encrypted under a sound key, reads back as sent. |

## Left out

- RSA arithmetic, key generation and PEM files (crypto/crypt.py:9-57): a foreign library and the filesystem. The primitive is the `KeyPair` parameter, and `Crypt.Sound` is all that is assumed of it. PKCS #1 padding randomness is folded into `seal`.
- Crypt.EncryptRsa: a Python `str` can hold a lone surrogate (JSON `"\ud800"` parses to one), and `msg.encode('utf-8')` then raises UnicodeEncodeError, so `receive` stores and sends nothing. A Dafny `char` cannot hold a surrogate, so that failure is not modelled.
- Base64.Decode: Python's `b64decode` is more lenient than this decoder. It skips characters outside the alphabet, stops at the first complete padding, and accepts non-zero leftover bits. Text of that kind, which `encrypt` never produces, raises in the model instead of being decoded.
- Sessions.AsText: Python's `str()` of a list is modelled only for items without quotes, backslashes or unprintable characters. Token items never contain any.
- Consumers.Fields: JSON that is not an object is one case, TypeError, whatever its kind. JSON values of other types than expected (a number as `message`, a string as `room_id`) and Django's coercion of them are not modelled.
- Consumers.Receive: the consumer is always connected before it receives, as Channels guarantees. The AttributeError of a handler running before `connect` is not modelled.
- Channel layer capacity, message expiry, async scheduling and cross-connection ordering: these are transport internals.
- `datetime.now()` and `strftime`: times are abstract naturals taken from a monotone clock, and formatting is left out.
- `secrets.choice`: its choices are the `picks` parameter.
- Rooms.GetUserChatRooms: the query has no `order_by`, so the database may list the rooms in any order. The model lists them in key order and promises nothing about the order beyond that.
- Rooms.GetRoomMessages: `order_by('timestamp')` is modelled as key order. `Rooms.HistoryAscending` shows that this order is ascending by timestamp, but among messages with equal timestamps the database may return another order.
- The `chat_room` view (chat/views.py:200-225): it depends on `@login_required` and `request.user` from Django's authentication, which is not part of this model.
- HTTP plumbing: templates, `JsonResponse`, `redirect` and the AJAX header check. These become outcome values and a boolean.
- chat/forms.py: `UserSearchForm` validation is the `userName: Option<string>` argument of `Rooms.SearchUser`, `None` meaning invalid.
- Consumers.Connect: the decimal digits the layer accepts are those of Unicode 15.0 (the table Python 3.12 carries); a Python built on another Unicode version accepts a slightly different set.
- URL dispatch (chat/urls.py, chattyfast/urls.py, chat/routing.py): the room name of a connection is any string, and `Consumers.Connect` applies the layer's group-name rule to it. The rule is the Channels library's pattern `^[a-zA-Z\d\-_.]+$` with fewer than 100 characters; that library is not part of this model, and `Groups.ValidGroupName` restates the pattern as Python reads it: `\d` is any Unicode decimal digit (as of Unicode 15.0) and `$` also matches before one final newline; `group_send` applies it too, but only groups that passed at connect time reach it.
- chat/migrations/0001_initial.py contradicts chat/models.py. The model follows models.py.
- An exception escaping a view leaves database and session unchanged. Django's session middleware does not save a session after a server error, so no later state is modelled for that path.

=== FILE: accounts.dfy ===
/**
 * The account views of chat/views.py: `login` (sign-in and registration)
 * and `index`. A view's outcome is the next database, the next session
 * entry and the page it answers with; an exception that escapes a view
 * ends the request with neither the database nor the session changed.
 */
module Accounts {
  import opened Results
  import opened Errors
  import opened Models
  import opened Sessions
  import Tokens
  import Utils

  /** What a view answers with, HTTP details aside. */
  datatype Page = Redirect(url: string) | LoginPage(error: Option<string>) | IndexPage(userId: nat, userName: string)

  datatype Outcome = Outcome(db: Db, session: Session, page: Page)

  /** The form fields of a login request; `None` is a field the form did not send. */
  datatype LoginRequest = LoginRequest(
    isPost: bool, mode: Option<string>, userName: Option<string>, password: Option<string>, email: Option<string>)

  /**
   * The three tokens `create_token` hands out during one login request, in
   * call order: the user's token, then the session token and the UID of a
   * registration.
   */
  datatype Fresh = Fresh(token: string, sessionToken: string, uid: string)

  /** What `create_token` can return, for each of the three calls. */
  predicate Drawn(f: Fresh) {
    Tokens.IsToken(f.token) && Tokens.IsToken(f.sessionToken) && Tokens.IsToken(f.uid)
  }

  /** The three calls of `create_token` in one request, reading the random source in turn. */
  function FreshTokens(picks: seq<nat>): (f: Fresh)
    requires |picks| >= 3 * Tokens.TokenLength
    ensures Drawn(f)
    ensures f.token == Tokens.CreateToken(picks)
  {
    var n := Tokens.TokenLength;
    Fresh(Tokens.CreateToken(picks), Tokens.CreateToken(picks[n..]), Tokens.CreateToken(picks[2 * n..]))
  }

  const InvalidCredentials: string := "Invalid login credentials"
  const AlreadyExists: string := "User already exists"

  /** A form field as a keyword argument: a missing field is an explicit None. */
  function ArgOf(field: Option<string>): (a: Arg)
    ensures a.Null? <==> field.None?
    ensures field.Some? ==> a == Str(field.value)
  {
    if field.None? then Null else Str(field.value)
  }

  /** `User.objects.get(user_name=...)`; no row has a NULL name, so a missing field finds nobody. */
  function Named(db: Db, userName: Option<string>): (r: Lookup<User>)
    ensures r.NotFound? <==> userName.None? || forall i | 0 <= i < |db.users| :: db.users[i].userName != userName.value
    ensures r.Multiple? <==> userName.Some? && exists i, j | 0 <= i < j < |db.users| ::
      db.users[i].userName == userName.value && db.users[j].userName == userName.value
    ensures r.Found? ==> r.row in db.users && Some(r.row.userName) == userName
    ensures userName.Some? ==> r == UserNamed(db, userName.value)
  {
    if userName.None? then NotFound else UserNamed(db, userName.value)
  }

  /** The sign-in test: a user of that name exists and the submitted password equals its password. */
  predicate CredentialsMatch(db: Db, req: LoginRequest) {
    Named(db, req.userName).Found? && req.password == Some(Named(db, req.userName).row.password)
  }

  /** The row `User.objects.create` receives on registration; `name` is not passed. */
  function Registration(req: LoginRequest, drawn: Fresh): UserArgs {
    UserArgs(Str(drawn.uid), Omitted, ArgOf(req.userName), ArgOf(req.email), ArgOf(req.password), Str(drawn.token))
  }

  /**
   * `login`. Sign-in with matching credentials stores one fresh token both
   * as the user's token and in the session. Registration of an unused name
   * creates one user holding that token but puts a different fresh token in
   * the session. Every other path leaves database and session alone.
   */
  function Login(db: Db, session: Session, req: LoginRequest, drawn: Fresh): (r: Result<Outcome, Error>)
    requires Drawn(drawn)
    ensures !req.isPost ==> r == Success(Outcome(db, session, LoginPage(None)))
    ensures req.isPost && Named(db, req.userName).Multiple? ==> r == Failure(MultipleObjectsReturned)
    ensures r.Failure? && !Named(db, req.userName).Multiple? ==> r.error == IntegrityError
    ensures r.Failure? <==>
      req.isPost && (Named(db, req.userName).Multiple? ||
        (req.mode == Some("reg") && Named(db, req.userName).NotFound? && Registration(req, drawn).HasNull()))
    ensures r.Success? && r.value.page != Redirect("/") ==> r.value.db == db && r.value.session == session
    ensures req.isPost && req.mode == Some("log") && !Named(db, req.userName).Multiple? ==>
      (r.Success? && r.value.page == Redirect("/") <==> CredentialsMatch(db, req))
    ensures req.isPost && req.mode == Some("log") && r.Success? && r.value.page == Redirect("/") ==>
      var u := Named(db, req.userName).row;
      && r.value.session == Some(Tokens([drawn.token]))
      && |r.value.db.users| == |db.users|
      && (forall i | 0 <= i < |db.users| ::
            r.value.db.users[i] == if db.users[i].id == u.id then db.users[i].(token := drawn.token) else db.users[i])
      && r.value.db == db.(users := r.value.db.users)
    ensures req.isPost && req.mode == Some("reg") && Named(db, req.userName).NotFound? ==>
      (r.Success? <==> req.userName.Some? && req.password.Some? && req.email.Some?)
    ensures req.isPost && req.mode == Some("reg") && r.Success? ==>
      (r.value.page == Redirect("/") <==> Named(db, req.userName).NotFound?)
    ensures req.isPost && req.mode == Some("reg") && r.Success? && r.value.page == Redirect("/") ==>
      && r.value.session == Some(Tokens([drawn.sessionToken]))
      && |r.value.db.users| == |db.users| + 1
      && r.value.db.users[..|db.users|] == db.users
      && r.value.db == db.(users := r.value.db.users, nextUser := db.nextUser + 1)
      && var u := r.value.db.users[|db.users|];
         && u.id == db.nextUser
         && Some(u.userName) == req.userName && Some(u.password) == req.password && Some(u.email) == req.email
         && u.token == drawn.token && u.uid == drawn.uid && u.name == Default
    ensures req.isPost && req.mode == Some("log") && r.Success? && r.value.page != Redirect("/") ==>
      r.value.page == LoginPage(Some(InvalidCredentials))
    ensures req.isPost && req.mode == Some("reg") && r.Success? && r.value.page != Redirect("/") ==>
      r.value.page == LoginPage(Some(AlreadyExists))
    ensures req.mode != Some("log") && req.mode != Some("reg") && r.Success? ==>
      r.value == Outcome(db, session, LoginPage(None))
  {
    if !req.isPost then Success(Outcome(db, session, LoginPage(None)))
    else
      var found := Named(db, req.userName);
      if found.Multiple? then Failure(MultipleObjectsReturned)
      else if req.mode == Some("log") then
        if CredentialsMatch(db, req) then
          Success(Outcome(SetToken(db, found.row.id, drawn.token), Some(Tokens([drawn.token])), Redirect("/")))
        else Success(Outcome(db, session, LoginPage(Some(InvalidCredentials))))
      else if req.mode == Some("reg") then
        if found.NotFound? then
          match CreateUser(db, Registration(req, drawn))
          case Failure(e) => Failure(e)
          case Success((db', _)) => Success(Outcome(db', Some(Tokens([drawn.sessionToken])), Redirect("/")))
        else Success(Outcome(db, session, LoginPage(Some(AlreadyExists))))
      else Success(Outcome(db, session, LoginPage(None)))
  }

  /**
   * `index`: no session entry, or no user holding its first element, sends
   * the client to the login page; otherwise the page of that user.
   */
  function Index(db: Db, session: Session): (r: Result<Page, Error>)
    ensures session.None? ==> r == Success(Redirect("/login"))
    ensures r == Failure(IndexError) <==> session.Some? && !Truthy(session.value)
    ensures forall k | 0 <= k < |db.users| ::
      (SessionToken(session).Success? && db.users[k].token == SessionToken(session).value
        && forall i | 0 <= i < |db.users| && i != k :: db.users[i].token != SessionToken(session).value)
      ==> r == Success(IndexPage(db.users[k].id, db.users[k].userName))
    ensures r.Success? && r.value.IndexPage? ==>
      exists i | 0 <= i < |db.users| :: db.users[i].id == r.value.userId && db.users[i].userName == r.value.userName
        && db.users[i].token == SessionToken(session).value
    ensures r == Success(Redirect("/login")) <==>
      session.None? || (SessionToken(session).Success? &&
        forall i | 0 <= i < |db.users| :: db.users[i].token != SessionToken(session).value)
    ensures r == Failure(MultipleObjectsReturned) <==>
      SessionToken(session).Success? && exists i, j | 0 <= i < j < |db.users| ::
        db.users[i].token == SessionToken(session).value && db.users[j].token == SessionToken(session).value
    ensures r.Failure? ==> r.error in {IndexError, MultipleObjectsReturned}
  {
    if session.None? then Success(Redirect("/login"))
    else
      match SessionToken(session)
      case Failure(e) => Failure(e)
      case Success(token) =>
        match UserWithToken(db, token)
        case NotFound => Success(Redirect("/login"))
        case Multiple => Failure(MultipleObjectsReturned)
        case Found(u) => Success(IndexPage(u.id, u.userName))
  }

  /** A token written to one user, and held by no other, finds exactly that user. */
  lemma SoleHolderFound(db: Db, k: nat, token: string)
    requires UsersOrdered(db.users, db.nextUser) && k < |db.users|
    requires forall i | 0 <= i < |db.users| && db.users[i].id != db.users[k].id :: db.users[i].token != token
    ensures UserWithToken(SetToken(db, db.users[k].id, token), token) == Found(db.users[k].(token := token))
  {
    var users := SetToken(db, db.users[k].id, token).users;
    assert users[k] == db.users[k].(token := token);
    forall j | 0 <= j < |users| && j != k ensures users[j].token != token {
      assert db.users[j].id != db.users[k].id by {
        if j < k {
          assert db.users[j].id < db.users[k].id;
        } else {
          assert db.users[k].id < db.users[j].id;
        }
      }
    }
    var holders := UserWithToken(SetToken(db, db.users[k].id, token), token);
    assert !holders.NotFound? && !holders.Multiple?;
    var h :| 0 <= h < |users| && users[h] == holders.row && holders.row.token == token;
    assert h == k;
  }

  /** After signing in, the index page is that user's, provided no one else holds the fresh token. */
  lemma LoginThenIndex(db: Db, session: Session, req: LoginRequest, drawn: Fresh)
    requires Valid(db) && Drawn(drawn) && req.isPost && req.mode == Some("log") && CredentialsMatch(db, req)
    requires forall i | 0 <= i < |db.users| && db.users[i].id != Named(db, req.userName).row.id ::
      db.users[i].token != drawn.token
    ensures Login(db, session, req, drawn).Success?
    ensures var o := Login(db, session, req, drawn).value;
      var u := Named(db, req.userName).row;
      Index(o.db, o.session) == Success(IndexPage(u.id, u.userName))
  {
    var u := Named(db, req.userName).row;
    var k :| 0 <= k < |db.users| && db.users[k] == u;
    assert Login(db, session, req, drawn) ==
      Success(Outcome(SetToken(db, u.id, drawn.token), Some(Tokens([drawn.token])), Redirect("/")));
    SoleHolderFound(db, k, drawn.token);
  }

  /**
   * After registering, the index page sends the new user back to the login
   * page: the session holds a token that no user holds.
   */
  lemma RegisterThenIndexRedirects(db: Db, session: Session, req: LoginRequest, drawn: Fresh)
    requires Drawn(drawn) && req.isPost && req.mode == Some("reg") && Named(db, req.userName).NotFound?
    requires req.userName.Some? && req.password.Some? && req.email.Some?
    requires drawn.sessionToken != drawn.token
    requires forall i | 0 <= i < |db.users| :: db.users[i].token != drawn.sessionToken
    ensures Login(db, session, req, drawn).Success?
    ensures var o := Login(db, session, req, drawn).value;
      o.page == Redirect("/") && Index(o.db, o.session) == Success(Redirect("/login"))
  {
    var o := Login(db, session, req, drawn).value;
    assert o.db.users == db.users + [o.db.users[|db.users|]];
  }

  /**
   * The list sign-in stores is invisible to `get_user_from_session`: it never
   * finds the user who just signed in.
   */
  lemma LoginSessionUnknownToUtils(db: Db, session: Session, req: LoginRequest, drawn: Fresh)
    requires Utils.TokensWellFormed(db) && Drawn(drawn)
    requires req.isPost && req.mode == Some("log") && CredentialsMatch(db, req)
    ensures Login(db, session, req, drawn).Success?
    ensures var o := Login(db, session, req, drawn).value;
      o.page == Redirect("/") && Utils.GetUserFromSession(o.db, o.session) == Success(None)
  {
    var o := Login(db, session, req, drawn).value;
    assert Utils.TokensWellFormed(o.db) by {
      forall i | 0 <= i < |o.db.users|
        ensures Tokens.IsToken(o.db.users[i].token) || o.db.users[i].token == Default
      {
        assert o.db.users[i].token == drawn.token || o.db.users[i] == db.users[i];
      }
    }
    Utils.LoginSessionNeverResolves(o.db, [drawn.token]);
  }
}

=== FILE: base64.dfy ===
/**
 * The base 64 encoding of section 4 of RFC 4648: three octets become four
 * characters of a 64-letter alphabet, and a final group of one or two octets
 * is padded with `=` to four characters. `Encode` is `base64.b64encode`;
 * `Decode` accepts exactly the texts `Encode` can produce and refuses
 * everything else (the refusal is Python's `binascii.Error`).
 */
module Base64 {
  import opened Results
  import opened Bytes

  type sextet = x: int | 0 <= x < 64

  /** The alphabet of Table 1 of RFC 4648: A-Z, a-z, 0-9, '+', '/'. */
  function CharOf(v: sextet): char {
    if v < 26 then ('A' as int + v) as char
    else if v < 52 then ('a' as int + (v - 26)) as char
    else if v < 62 then ('0' as int + (v - 52)) as char
    else if v == 62 then '+'
    else '/'
  }

  /** The value of an alphabet character; None for any other character, '=' included. */
  function ValueOf(ch: char): (r: Option<sextet>)
    ensures r.Some? ==> CharOf(r.value) == ch
  {
    if 'A' <= ch <= 'Z' then Some(ch as int - 'A' as int)
    else if 'a' <= ch <= 'z' then Some(ch as int - 'a' as int + 26)
    else if '0' <= ch <= '9' then Some(ch as int - '0' as int + 52)
    else if ch == '+' then Some(62)
    else if ch == '/' then Some(63)
    else None
  }

  predicate IsAlphabet(ch: char) { ValueOf(ch).Some? }

  lemma ValueOfCharOf(v: sextet)
    ensures ValueOf(CharOf(v)) == Some(v)
  {
  }

  /** A padded base 64 text: alphabet characters, then at most two '=', length a multiple of four. */
  predicate IsPadded(s: string) {
    && |s| % 4 == 0
    && (forall i | 0 <= i < |s| :: IsAlphabet(s[i]) || (s[i] == '=' && i >= |s| - 2))
    && (forall i | 0 <= i < |s| - 1 :: s[i] == '=' ==> s[i + 1] == '=')
  }

  function EncodeTriple(b0: byte, b1: byte, b2: byte): string {
    [CharOf(b0 / 4), CharOf((b0 % 4) * 16 + b1 / 16), CharOf((b1 % 16) * 4 + b2 / 64), CharOf(b2 % 64)]
  }

  function EncodeOne(b0: byte): string {
    [CharOf(b0 / 4), CharOf((b0 % 4) * 16), '=', '=']
  }

  function EncodeTwo(b0: byte, b1: byte): string {
    [CharOf(b0 / 4), CharOf((b0 % 4) * 16 + b1 / 16), CharOf((b1 % 16) * 4), '=']
  }

  function Encode(bs: seq<byte>): (s: string)
    ensures |s| == 4 * ((|bs| + 2) / 3)
    ensures forall i | 0 <= i < |s| - 2 :: IsAlphabet(s[i])
  {
    if |bs| == 0 then []
    else if |bs| == 1 then EncodeOne(bs[0])
    else if |bs| == 2 then EncodeTwo(bs[0], bs[1])
    else
      var s := EncodeTriple(bs[0], bs[1], bs[2]) + Encode(bs[3..]);
      assert forall i | 0 <= i < 4 :: IsAlphabet(s[i]) by {
        forall v: sextet ensures IsAlphabet(CharOf(v)) { ValueOfCharOf(v); }
      }
      s
  }

  /** The octets carried by consecutive sextets a, b, c, d. */
  function First(a: sextet, b: sextet): byte { a * 4 + b / 16 }
  function Second(b: sextet, c: sextet): byte { (b % 16) * 16 + c / 4 }
  function Third(c: sextet, d: sextet): byte { (c % 4) * 64 + d }

  /** Four alphabet characters, no padding, as three octets. */
  function DecodeQuad(q: string): Option<seq<byte>>
    requires |q| == 4
  {
    match (ValueOf(q[0]), ValueOf(q[1]), ValueOf(q[2]), ValueOf(q[3]))
    case (Some(a), Some(b), Some(c), Some(d)) =>
      Some([First(a, b), Second(b, c), Third(c, d)])
    case _ => None
  }

  /**
   * The last group, which may end in "==" (one octet) or "=" (two octets);
   * the bits the padding leaves over must be zero, as `Encode` writes them.
   */
  function DecodeLast(q: string): Option<seq<byte>>
    requires |q| == 4
  {
    if q[2] == '=' && q[3] == '=' then
      match (ValueOf(q[0]), ValueOf(q[1]))
      case (Some(a), Some(b)) => if b % 16 == 0 then Some([First(a, b)]) else None
      case _ => None
    else if q[3] == '=' then
      match (ValueOf(q[0]), ValueOf(q[1]), ValueOf(q[2]))
      case (Some(a), Some(b), Some(c)) =>
        if c % 4 == 0 then Some([First(a, b), Second(b, c)]) else None
      case _ => None
    else DecodeQuad(q)
  }

  /**
   * Strict decoding of padded text: every group of four characters gives
   * three octets, except that the last may give one or two.
   */
  function Decode(s: string): (r: Option<seq<byte>>)
    ensures r.Some? ==> 4 * |r.value| <= 3 * |s| <= 4 * |r.value| + 8
    decreases |s|
  {
    if |s| == 0 then Some([])
    else if |s| < 4 then None
    else if |s| == 4 then DecodeLast(s)
    else
      match (DecodeQuad(s[..4]), Decode(s[4..]))
      case (Some(head), Some(tail)) => Some(head + tail)
      case _ => None
  }

  lemma DecodeEncodeTriple(b0: byte, b1: byte, b2: byte)
    ensures DecodeQuad(EncodeTriple(b0, b1, b2)) == Some([b0, b1, b2])
  {
    var a: sextet, b: sextet, c: sextet, d: sextet := b0 / 4, (b0 % 4) * 16 + b1 / 16, (b1 % 16) * 4 + b2 / 64, b2 % 64;
    ValueOfCharOf(a); ValueOfCharOf(b); ValueOfCharOf(c); ValueOfCharOf(d);
    var q := EncodeTriple(b0, b1, b2);
    assert q == [CharOf(a), CharOf(b), CharOf(c), CharOf(d)];
    assert First(a, b) == b0 && Second(b, c) == b1 && Third(c, d) == b2 by {
      assert b / 16 == b0 % 4 && b % 16 == b1 / 16;
      assert c / 4 == b1 % 16 && c % 4 == b2 / 64;
    }
  }

  lemma DecodeEncodeOne(b0: byte)
    ensures DecodeLast(EncodeOne(b0)) == Some([b0])
  {
    var a: sextet, b: sextet := b0 / 4, (b0 % 4) * 16;
    ValueOfCharOf(a);
    ValueOfCharOf(b);
    assert b % 16 == 0 && First(a, b) == b0;
  }

  lemma DecodeEncodeTwo(b0: byte, b1: byte)
    ensures DecodeLast(EncodeTwo(b0, b1)) == Some([b0, b1])
  {
    var a: sextet, b: sextet, c: sextet := b0 / 4, (b0 % 4) * 16 + b1 / 16, (b1 % 16) * 4;
    ValueOfCharOf(a);
    ValueOfCharOf(b);
    ValueOfCharOf(c);
    assert First(a, b) == b0 && Second(b, c) == b1 by {
      assert b / 16 == b0 % 4 && b % 16 == b1 / 16;
    }
    assert c % 4 == 0;
  }

  lemma DecodeLastTriple(b0: byte, b1: byte, b2: byte)
    ensures DecodeLast(EncodeTriple(b0, b1, b2)) == Some([b0, b1, b2])
  {
    var q := EncodeTriple(b0, b1, b2);
    ValueOfCharOf((b1 % 16) * 4 + b2 / 64);
    ValueOfCharOf(b2 % 64);
    assert q[2] != '=' && q[3] != '=';
    DecodeEncodeTriple(b0, b1, b2);
  }

  /** Round trip: decoding inverts encoding for every octet string. */
  lemma {:induction false} DecodeEncode(bs: seq<byte>)
    ensures Decode(Encode(bs)) == Some(bs)
    decreases |bs|
  {
    if |bs| == 1 {
      DecodeEncodeOne(bs[0]);
      assert [bs[0]] == bs;
    } else if |bs| == 2 {
      DecodeEncodeTwo(bs[0], bs[1]);
      assert [bs[0], bs[1]] == bs;
    } else if |bs| == 3 {
      assert Encode(bs) == EncodeTriple(bs[0], bs[1], bs[2]);
      DecodeLastTriple(bs[0], bs[1], bs[2]);
      assert [bs[0], bs[1], bs[2]] == bs;
    } else if |bs| > 3 {
      DecodeEncode(bs[3..]);
      DecodeEncodeStep(bs);
    }
  }

  /** One inductive step: a full leading group followed by a text that already round-trips. */
  lemma DecodeEncodeStep(bs: seq<byte>)
    requires |bs| > 3
    requires Decode(Encode(bs[3..])) == Some(bs[3..])
    ensures Decode(Encode(bs)) == Some(bs)
  {
    var head := EncodeTriple(bs[0], bs[1], bs[2]);
    var t := Encode(bs[3..]);
    assert Encode(bs) == head + t;
    DecodeEncodeTriple(bs[0], bs[1], bs[2]);
    DecodeConcat(head, t, [bs[0], bs[1], bs[2]], bs[3..]);
    Reassemble(bs);
  }

  /** Decoding a full group followed by more text decodes each part. */
  lemma DecodeConcat(head: string, t: string, h: seq<byte>, tt: seq<byte>)
    requires |head| == 4 && |t| > 0
    requires DecodeQuad(head) == Some(h) && Decode(t) == Some(tt)
    ensures Decode(head + t) == Some(h + tt)
  {
    var s := head + t;
    assert s[..4] == head && s[4..] == t;
  }

  lemma Reassemble(bs: seq<byte>)
    requires |bs| >= 3
    ensures [bs[0], bs[1], bs[2]] + bs[3..] == bs
  {
  }

  /** Encoding the octets of one decoded group gives the group back. */
  lemma EncodeDecodeQuad(q: string)
    requires |q| == 4 && DecodeQuad(q).Some?
    ensures |DecodeQuad(q).value| == 3
    ensures var h := DecodeQuad(q).value; EncodeTriple(h[0], h[1], h[2]) == q
  {
    var a, b, c, d := ValueOf(q[0]).value, ValueOf(q[1]).value, ValueOf(q[2]).value, ValueOf(q[3]).value;
    var b0, b1, b2 := First(a, b), Second(b, c), Third(c, d);
    assert b0 / 4 == a && b0 % 4 == b / 16;
    assert b1 / 16 == b % 16 && b1 % 16 == c / 4;
    assert b2 / 64 == c % 4 && b2 % 64 == d;
    assert (b0 % 4) * 16 + b1 / 16 == b;
    assert (b1 % 16) * 4 + b2 / 64 == c;
  }

  lemma EncodeDecodeLast(q: string)
    requires |q| == 4 && DecodeLast(q).Some?
    ensures Encode(DecodeLast(q).value) == q
  {
    if q[2] == '=' && q[3] == '=' {
      var a, b := ValueOf(q[0]).value, ValueOf(q[1]).value;
      var b0 := First(a, b);
      assert b0 / 4 == a && (b0 % 4) * 16 == b;
      assert EncodeOne(b0) == q;
    } else if q[3] == '=' {
      var a, b, c := ValueOf(q[0]).value, ValueOf(q[1]).value, ValueOf(q[2]).value;
      var b0, b1 := First(a, b), Second(b, c);
      assert b0 / 4 == a && b0 % 4 == b / 16;
      assert b1 / 16 == b % 16 && (b1 % 16) * 4 == c;
      assert (b0 % 4) * 16 + b1 / 16 == b;
      assert EncodeTwo(b0, b1) == q;
    } else {
      EncodeDecodeQuad(q);
      var h := DecodeQuad(q).value;
      assert Encode(h) == EncodeTriple(h[0], h[1], h[2]) + Encode([]);
    }
  }

  /**
   * The converse round trip: every text `Decode` accepts is the encoding of
   * what it decodes to, so `Decode` accepts exactly the encodings.
   */
  lemma {:induction false} EncodeDecode(s: string)
    requires Decode(s).Some?
    ensures Encode(Decode(s).value) == s
    ensures |Decode(s).value| > 0 <==> |s| > 0
    decreases |s|
  {
    if |s| == 4 {
      EncodeDecodeLast(s);
    } else if |s| > 4 {
      EncodeDecode(s[4..]);
      EncodeDecodeQuad(s[..4]);
      var h, tt := DecodeQuad(s[..4]).value, Decode(s[4..]).value;
      var bs := h + tt;
      assert Decode(s).value == bs;
      assert bs[..3] == h && bs[3..] == tt;
      assert Encode(bs) == EncodeTriple(h[0], h[1], h[2]) + Encode(tt);
      assert s == s[..4] + s[4..];
    }
  }

  /** Every encoding is a padded base 64 text. */
  lemma {:induction false} EncodeIsPadded(bs: seq<byte>)
    ensures IsPadded(Encode(bs))
    decreases |bs|
  {
    var s := Encode(bs);
    if |bs| > 2 {
      EncodeIsPadded(bs[3..]);
      var t := Encode(bs[3..]);
      assert s == EncodeTriple(bs[0], bs[1], bs[2]) + t;
      forall i | 0 <= i < |s|
        ensures IsAlphabet(s[i]) || (s[i] == '=' && i >= |s| - 2)
      {
        if i >= 4 { assert s[i] == t[i - 4]; }
      }
      forall i | 0 <= i < |s| - 1
        ensures s[i] == '=' ==> s[i + 1] == '='
      {
        if i >= 4 { assert s[i] == t[i - 4] && s[i + 1] == t[i - 3]; }
      }
    } else if |bs| == 1 {
      ValueOfCharOf(bs[0] / 4);
      ValueOfCharOf((bs[0] % 4) * 16);
    } else if |bs| == 2 {
      ValueOfCharOf(bs[0] / 4);
      ValueOfCharOf((bs[0] % 4) * 16 + bs[1] / 16);
      ValueOfCharOf((bs[1] % 16) * 4);
    }
  }

  /** A text whose length is not a multiple of four is refused. */
  lemma {:induction false} DecodeRefusesRaggedLength(s: string)
    requires |s| % 4 != 0
    ensures Decode(s) == None
    decreases |s|
  {
    if |s| > 4 {
      DecodeRefusesRaggedLength(s[4..]);
    }
  }
}

=== FILE: consumers.dfy ===
/**
 * `ChatConsumer` of chat/consumers.py: one WebSocket connection joined to
 * the group of the room named in its URL, relaying what it receives to
 * that group after storing it.
 *
 * A transition takes the whole world (database and channel layer) and
 * returns the next one, with the exception that escaped, if any.
 */
module Consumers {
  import opened Results
  import opened Errors
  import opened Models
  import opened Groups
  import Crypt
  import Utf8

  datatype World = World(db: Db, layer: Layer)

  /** What a handler left behind: the world, and the exception that escaped it, if one did. */
  datatype Step = Step(world: World, raised: Option<Error>)

  /** A connected consumer: its channel name and the group fixed when it connected. */
  datatype Conn = Conn(channel: ChannelId, roomName: string, group: string)

  /**
   * A decoded `text_data`: not JSON at all, JSON other than an object (a
   * list, a string, a number), or an object whose three keys may each be
   * missing.
   */
  datatype Payload =
    | Unparseable
    | NotAnObject
    | Parsed(message: Option<string>, roomId: Option<int>, sender: Option<string>)

  /** The JSON object `chat_message` sends to the client. */
  datatype Frame = Frame(message: string, sender: string, timestamp: nat)

  /** The group of a room. */
  function GroupName(roomName: string): (g: string)
    ensures |g| == |roomName| + 5 && g[..5] == "chat_" && g[5..] == roomName
  {
    "chat_" + roomName
  }

  /** Different rooms have different groups. */
  lemma GroupNameInjective(a: string, b: string)
    requires GroupName(a) == GroupName(b)
    ensures a == b
  {
    assert a == GroupName(a)[5..];
  }

  /**
   * `connect`: the connection joins the group of the room in its route;
   * nothing else changes. The layer refuses a group name that is too long
   * or holds a character outside its set, and then `connect` raises
   * before the connection joins anything.
   */
  function Connect(w: World, channel: ChannelId, roomName: string): (r: Result<(World, Conn), Error>)
    ensures r.Failure? <==> !ValidGroupName(GroupName(roomName))
    ensures r.Failure? ==> r.error == TypeError
    ensures r.Success? ==>
      var (w', conn) := r.value;
      && conn == Conn(channel, roomName, GroupName(roomName))
      && Members(w'.layer, GroupName(roomName)) == Members(w.layer, GroupName(roomName)) + {channel}
      && (forall h | h != GroupName(roomName) :: Members(w'.layer, h) == Members(w.layer, h))
      && (forall d :: Queue(w'.layer, d) == Queue(w.layer, d))
      && w'.db == w.db
  {
    var g := GroupName(roomName);
    if !ValidGroupName(g) then Failure(TypeError)
    else Success((w.(layer := GroupAdd(w.layer, g, channel)), Conn(channel, roomName, g)))
  }

  /**
   * Which routed room names connect: the route admits any run of word
   * characters, but only those of at most 94 characters drawn from the
   * layer's class make a group name the layer accepts.
   */
  lemma ConnectAcceptsShortNames(w: World, channel: ChannelId, roomName: string)
    requires roomName != [] && forall i | 0 <= i < |roomName| :: IsGroupNameChar(roomName[i])
    ensures Connect(w, channel, roomName).Success? <==> |roomName| < MaxNameLength - 5
  {
    var g := GroupName(roomName);
    if |roomName| < MaxNameLength - 5 {
      forall i | 0 <= i < |g| ensures IsGroupNameChar(g[i]) {
        if i >= 5 {
          assert g[i] == roomName[i - 5];
        } else {
          assert g[..5] == "chat_" && g[i] == g[..5][i];
        }
      }
    }
  }

  /** Digits of another script are digits to the layer: a room named with Arabic-Indic one and two connects. */
  lemma ConnectAcceptsArabicIndicDigits(w: World, channel: ChannelId)
    ensures Connect(w, channel, "\U{0661}\U{0662}").Success?
  {
    var name := "\U{0661}\U{0662}";
    assert IsDecimalDigit(name[0]) && IsDecimalDigit(name[1]);
    ConnectAcceptsShortNames(w, channel, name);
  }

  /**
   * A room name with a character outside the layer's class, such as a
   * letter with an accent, never connects; the one exception is a newline
   * at the very end, which the pattern's `$` lets through.
   */
  lemma ConnectRefusesForeignCharacters(w: World, channel: ChannelId, roomName: string, i: nat)
    requires i < |roomName| && !IsGroupNameChar(roomName[i])
    requires i + 1 < |roomName| || roomName[i] != '\n'
    ensures Connect(w, channel, roomName) == Failure(TypeError)
  {
    assert GroupName(roomName)[i + 5] == roomName[i];
  }

  /** `disconnect`: the connection leaves its group, whatever the close code; other members stay. */
  function Disconnect(w: World, conn: Conn, closeCode: int): (w': World)
    ensures Members(w'.layer, conn.group) == Members(w.layer, conn.group) - {conn.channel}
    ensures forall h | h != conn.group :: Members(w'.layer, h) == Members(w.layer, h)
    ensures forall d :: Queue(w'.layer, d) == Queue(w.layer, d)
    ensures w'.db == w.db
  {
    w.(layer := GroupDiscard(w.layer, conn.group, conn.channel))
  }

  /** A connection that leaves restores the layer it joined, when it was not already in the group. */
  lemma DisconnectUndoesConnect(w: World, channel: ChannelId, roomName: string, closeCode: int)
    requires Tidy(w.layer) && channel !in Members(w.layer, GroupName(roomName))
    requires ValidGroupName(GroupName(roomName))
    ensures Connect(w, channel, roomName).Success?
    ensures var (w', conn) := Connect(w, channel, roomName).value; Disconnect(w', conn, closeCode) == w
  {
    DiscardUndoesAdd(w.layer, GroupName(roomName), channel);
  }

  /**
   * `json.loads` followed by the three subscripts: text that is not JSON
   * raises JSONDecodeError, subscripting a value that is not an object
   * raises TypeError, a missing key raises KeyError.
   */
  function Fields(data: Payload): (r: Result<(string, int, string), Error>)
    ensures r.Failure? <==> !data.Parsed? || data.message.None? || data.roomId.None? || data.sender.None?
    ensures r.Failure? ==> r.error == match data
      case Unparseable => JsonDecodeError
      case NotAnObject => TypeError
      case Parsed(_, _, _) => KeyError
    ensures r.Success? ==> data == Parsed(Some(r.value.0), Some(r.value.1), Some(r.value.2))
  {
    match data
    case Unparseable => Failure(JsonDecodeError)
    case NotAnObject => Failure(TypeError)
    case Parsed(message, roomId, sender) =>
      if message.None? || roomId.None? || sender.None? then Failure(KeyError)
      else Success((message.value, roomId.value, sender.value))
  }

  /** A room `get_room` finds carries an existing key. */
  lemma FoundRoomHasKey(db: Db, roomId: int)
    ensures GetRoom(db, roomId).Success? ==> roomId in RoomIds(db)
  {
    if GetRoom(db, roomId).Success? {
      var room := GetRoom(db, roomId).value;
      assert room in db.rooms;
    }
  }

  /** `get_room`: the room with that key; neither DoesNotExist nor MultipleObjectsReturned is caught. */
  function GetRoom(db: Db, roomId: int): (r: Result<ChatRoom, Error>)
    ensures r.Success? ==> r.value in db.rooms && r.value.id == roomId
    ensures r.Failure? <==>
      (forall i | 0 <= i < |db.rooms| :: db.rooms[i].id != roomId) ||
      (exists i, j | 0 <= i < j < |db.rooms| :: db.rooms[i].id == roomId && db.rooms[j].id == roomId)
    ensures r.Failure? ==> (r.error == DoesNotExist <==> forall i | 0 <= i < |db.rooms| :: db.rooms[i].id != roomId)
    ensures r.Failure? ==> r.error in {DoesNotExist, MultipleObjectsReturned}
  {
    match RoomWithId(db, roomId)
    case Found(room) => Success(room)
    case NotFound => Failure(DoesNotExist)
    case Multiple => Failure(MultipleObjectsReturned)
  }

  /** In a valid database every existing key finds its room. */
  lemma RoomFoundByKey(db: Db, roomId: int)
    requires Valid(db) && roomId in RoomIds(db)
    ensures GetRoom(db, roomId).Success?
  {
    RoomKeysUnique(db, roomId);
  }

  /** Primary keys are unique, so a `get` by key never finds two rows. */
  lemma RoomKeysUnique(db: Db, id: int)
    requires Valid(db)
    ensures !RoomWithId(db, id).Multiple?
  {
    forall i, j | 0 <= i < j < |db.rooms| ensures !(db.rooms[i].id == id && db.rooms[j].id == id) {
      assert db.rooms[i].id < db.rooms[j].id;
    }
  }

  /**
   * `save_message`: an unknown sender name is swallowed and nothing is
   * stored; two users of that name raise; a known sender gets one new
   * message holding the encrypted text, unless encryption raises first.
   */
  function SaveMessage(k: Crypt.KeyPair, db: Db, room: ChatRoom, sender: string, message: string, dt: nat): (r: Result<Db, Error>)
    ensures UserNamed(db, sender).NotFound? ==> r == Success(db)
    ensures UserNamed(db, sender).Multiple? ==> r == Failure(MultipleObjectsReturned)
    ensures UserNamed(db, sender).Found? ==>
      var u := UserNamed(db, sender).row;
      && (r.Failure? <==> Crypt.Encrypt(k, message).Failure?)
      && (r.Failure? ==> r.error == OverflowError)
      && (r.Success? ==>
            && r.value.messages == db.messages + [Message(db.nextMessage, room.id, u.id, Crypt.Encrypt(k, message).value, db.clock + dt)]
            && r.value.users == db.users && r.value.rooms == db.rooms)
  {
    match UserNamed(db, sender)
    case NotFound => Success(db)
    case Multiple => Failure(MultipleObjectsReturned)
    case Found(user) =>
      var text :- Crypt.Encrypt(k, message);
      Success(AddMessage(db, room.id, user.id, text, dt))
  }

  /**
   * `receive`: parse, find the room, store, then broadcast to the group
   * fixed at connect time. The event carries the plaintext and the sender
   * name the client claimed; `room_id` only chooses where it is stored.
   */
  function Receive(k: Crypt.KeyPair, w: World, conn: Conn, data: Payload, dtSave: nat, dtSend: nat): (r: Step)
    ensures Fields(data).Failure? ==> r == Step(w, Some(Fields(data).error))
    ensures Fields(data).Success? && GetRoom(w.db, Fields(data).value.1).Failure? ==>
      r == Step(w, Some(GetRoom(w.db, Fields(data).value.1).error))
    ensures r.raised.Some? ==> r.world == w
    ensures r.raised.None? ==>
      var (message, _, sender) := Fields(data).value;
      && r.world.db.users == w.db.users && r.world.db.rooms == w.db.rooms
      && (forall h :: Members(r.world.layer, h) == Members(w.layer, h))
      && (forall d :: Queue(r.world.layer, d) ==
            if d in Members(w.layer, conn.group) then Queue(w.layer, d) + [Event(message, sender, w.db.clock + dtSave + dtSend)]
            else Queue(w.layer, d))
  {
    match Fields(data)
    case Failure(e) => Step(w, Some(e))
    case Success((message, roomId, sender)) =>
      match GetRoom(w.db, roomId)
      case Failure(e) => Step(w, Some(e))
      case Success(room) =>
        match SaveMessage(k, w.db, room, sender, message, dtSave)
        case Failure(e) => Step(w, Some(e))
        case Success(db') =>
          var now := w.db.clock + dtSave + dtSend;
          Step(World(db'.(clock := now), GroupSend(w.layer, conn.group, Event(message, sender, now))), None)
  }

  /**
   * `chat_message`: the oldest event waiting for channel `c` is sent to its
   * client with message, sender and timestamp unchanged.
   */
  function ChatMessage(l: Layer, c: ChannelId): (r: Option<(Layer, Frame)>)
    ensures r.None? <==> Queue(l, c) == []
    ensures r.Some? ==>
      var (l', f) := r.value;
      && Queue(l, c) == [Event(f.message, f.sender, f.timestamp)] + Queue(l', c)
      && (forall d | d != c :: Queue(l', d) == Queue(l, d))
      && (forall g :: Members(l', g) == Members(l, g))
  {
    var q := Queue(l, c);
    if q == [] then None
    else
      var e := q[0];
      assert q == [e] + q[1..];
      Some((l.(queues := l.queues[c := q[1..]]), Frame(e.message, e.sender, e.timestamp)))
  }

  /** Malformed text, a missing key or an unknown room: nothing is stored and nothing is sent. */
  lemma AbortBeforeEffects(k: Crypt.KeyPair, w: World, conn: Conn, data: Payload, dtSave: nat, dtSend: nat)
    requires Valid(w.db)
    requires data.Parsed? ==> data.message.Some? && data.sender.Some? && data.roomId.Some? ==> data.roomId.value !in RoomIds(w.db)
    ensures Receive(k, w, conn, data, dtSave, dtSend).raised.Some?
    ensures Receive(k, w, conn, data, dtSave, dtSend).world == w
  {
    if Fields(data).Success? {
      FoundRoomHasKey(w.db, Fields(data).value.1);
    }
  }

  /** An unknown sender's message is delivered to the whole group but never stored. */
  lemma UnknownSenderDeliveredNotStored(
    k: Crypt.KeyPair, w: World, conn: Conn, message: string, roomId: int, sender: string, dtSave: nat, dtSend: nat)
    requires Valid(w.db) && roomId in RoomIds(w.db)
    requires forall i | 0 <= i < |w.db.users| :: w.db.users[i].userName != sender
    ensures var r := Receive(k, w, conn, Parsed(Some(message), Some(roomId), Some(sender)), dtSave, dtSend);
      && r.raised.None?
      && r.world.db.messages == w.db.messages
      && forall d | d in Members(w.layer, conn.group) :: Queue(r.world.layer, d)[|Queue(w.layer, d)|].message == message
  {
    assert GetRoom(w.db, roomId).Success?;
  }

  /**
   * A known sender's non-empty message of at most 245 UTF-8 octets, under a
   * sound key, is stored exactly once, in the room the payload names, under
   * the sender's key, and reads back as what was sent.
   */
  lemma KnownSenderStoredOnce(
    k: Crypt.KeyPair, w: World, conn: Conn, message: string, room: ChatRoom, u: User, dtSave: nat, dtSend: nat)
    requires Valid(w.db) && Crypt.Sound(k) && room in w.db.rooms
    requires UserNamed(w.db, u.userName) == Found(u)
    requires message != [] && |Utf8.Encode(message)| <= Crypt.MaxPlainOctets
    ensures var r := Receive(k, w, conn, Parsed(Some(message), Some(room.id), Some(u.userName)), dtSave, dtSend);
      && r.raised.None?
      && |r.world.db.messages| == |w.db.messages| + 1
      && r.world.db.messages[..|w.db.messages|] == w.db.messages
      && var m := r.world.db.messages[|w.db.messages|];
         m.room == room.id && m.sender == u.id && Crypt.Decrypt(k, m.text) == Success(message)
  {
    assert room.id in RoomIds(w.db);
    Crypt.DecryptEncrypt(k, message);
  }

  /** Where an event goes depends only on the connection, never on the payload's `room_id`. */
  lemma BroadcastTargetFixedAtConnect(
    k: Crypt.KeyPair, w: World, conn: Conn, message: string, sender: string, a: int, b: int, dtSave: nat, dtSend: nat)
    requires Valid(w.db) && a in RoomIds(w.db) && b in RoomIds(w.db)
    ensures var ra := Receive(k, w, conn, Parsed(Some(message), Some(a), Some(sender)), dtSave, dtSend);
      var rb := Receive(k, w, conn, Parsed(Some(message), Some(b), Some(sender)), dtSave, dtSend);
      && ra.raised == rb.raised
      && (forall d :: Queue(ra.world.layer, d) == Queue(rb.world.layer, d))
  {
    RoomFoundByKey(w.db, a);
    RoomFoundByKey(w.db, b);
  }

  /** A frame sent to a group member that had nothing pending is the payload's plaintext and claimed sender. */
  lemma DeliveredFrameIsPayload(
    k: Crypt.KeyPair, w: World, conn: Conn, message: string, roomId: int, sender: string, dtSave: nat, dtSend: nat, c: ChannelId)
    requires c in Members(w.layer, conn.group) && Queue(w.layer, c) == []
    requires Receive(k, w, conn, Parsed(Some(message), Some(roomId), Some(sender)), dtSave, dtSend).raised.None?
    ensures var r := Receive(k, w, conn, Parsed(Some(message), Some(roomId), Some(sender)), dtSave, dtSend);
      && ChatMessage(r.world.layer, c).Some?
      && ChatMessage(r.world.layer, c).value.1.message == message
      && ChatMessage(r.world.layer, c).value.1.sender == sender
  {
  }

  /** Storing a message keeps the invariant: its room was found and its sender looked up by name. */
  lemma SaveMessageKeepsValid(k: Crypt.KeyPair, db: Db, room: ChatRoom, sender: string, message: string, dt: nat)
    requires Valid(db) && room in db.rooms
    requires SaveMessage(k, db, room, sender, message, dt).Success?
    ensures var db' := SaveMessage(k, db, room, sender, message, dt).value; Valid(db') && Preserves(db, db')
  {
    if UserNamed(db, sender).Found? {
      var u := UserNamed(db, sender).row;
      assert u in db.users && room.id in RoomIds(db);
      AddMessageKeepsValid(db, room.id, u.id, Crypt.Encrypt(k, message).value, dt);
    }
  }

  /** What a receive that raised nothing left in the database: the stored message, and the clock moved on. */
  lemma ReceiveStores(k: Crypt.KeyPair, w: World, conn: Conn, data: Payload, dtSave: nat, dtSend: nat)
    requires Receive(k, w, conn, data, dtSave, dtSend).raised.None?
    ensures Fields(data).Success? && GetRoom(w.db, Fields(data).value.1).Success?
    ensures var (message, roomId, sender) := Fields(data).value;
      var saved := SaveMessage(k, w.db, GetRoom(w.db, roomId).value, sender, message, dtSave);
      && saved.Success?
      && Receive(k, w, conn, data, dtSave, dtSend).world.db == saved.value.(clock := w.db.clock + dtSave + dtSend)
  {
  }

  /** Every handler keeps the database invariant, and never rewrites a stored row. */
  lemma ReceiveKeepsValid(k: Crypt.KeyPair, w: World, conn: Conn, data: Payload, dtSave: nat, dtSend: nat)
    requires Valid(w.db)
    ensures var r := Receive(k, w, conn, data, dtSave, dtSend); Valid(r.world.db) && Preserves(w.db, r.world.db)
  {
    var r := Receive(k, w, conn, data, dtSave, dtSend);
    if r.raised.None? {
      ReceiveStores(k, w, conn, data, dtSave, dtSend);
      var (message, roomId, sender) := Fields(data).value;
      var room := GetRoom(w.db, roomId).value;
      var saved := SaveMessage(k, w.db, room, sender, message, dtSave).value;
      var now := w.db.clock + dtSave + dtSend;
      SaveMessageKeepsValid(k, w.db, room, sender, message, dtSave);
      AdvanceKeepsValid(saved, now);
      PreservesTransitive(w.db, saved, saved.(clock := now));
      assert r.world.db == saved.(clock := now);
    } else {
      assert r.world == w;
    }
  }
}

=== FILE: crypt.dfy ===
/**
 * The message cipher of crypto/crypt.py: PKCS #1 v1.5 RSA encryption under
 * the application's 2048-bit key, framed as base 64 text for storage.
 *
 * The RSA primitive itself (key generation, modular arithmetic, padding
 * randomness, key files) is not modelled: a `KeyPair` is an opaque pair of
 * functions, and `Sound` is all the wrapper may assume about it.
 */
module Crypt {
  import opened Results
  import opened Bytes
  import opened Errors
  import Utf8
  import Base64

  /** Modulus length in octets of the 2048-bit key: every ciphertext has this length. */
  const KeyOctets: nat := 256

  /**
   * The longest plaintext PKCS #1 v1.5 encryption accepts, k - 11 octets
   * (section 7.2.1 of RFC 8017); longer input raises OverflowError.
   */
  const MaxPlainOctets: nat := KeyOctets - 11

  /** What `decrypt` shows in place of a message it could not read. */
  const Placeholder: string := "Could not decrypt the message."

  /** The RSA primitive under the loaded key: encryption, and decryption that may refuse. */
  datatype KeyPair = KeyPair(seal: seq<byte> -> seq<byte>, unseal: seq<byte> -> Option<seq<byte>>)

  /**
   * A key pair behaves as RSA does for messages within capacity: the
   * ciphertext is one modulus long and the private key recovers the message.
   */
  ghost predicate Sound(k: KeyPair) {
    forall m: seq<byte> | |m| <= MaxPlainOctets ::
      |k.seal(m)| == KeyOctets && k.unseal(k.seal(m)) == Some(m)
  }

  /** The result of `decrypt_rsa`: the recovered text, or Python's `False`. */
  datatype Recovered = Text(text: string) | Refused

  /** `encrypt_rsa`: UTF-8 encode, then encrypt; an over-long message is not caught. */
  function EncryptRsa(k: KeyPair, msg: string): (r: Result<seq<byte>, Error>)
    ensures r.Failure? <==> |Utf8.Encode(msg)| > MaxPlainOctets
    ensures r.Failure? ==> r.error == OverflowError
    ensures Sound(k) && r.Success? ==> |r.value| == KeyOctets && k.unseal(r.value) == Some(Utf8.Encode(msg))
  {
    var plain := Utf8.Encode(msg);
    if |plain| > MaxPlainOctets then Failure(OverflowError) else Success(k.seal(plain))
  }

  /**
   * `decrypt_rsa`: every failure of the primitive or of UTF-8 decoding is
   * swallowed into `Refused`; a recovered text is exactly the one whose
   * UTF-8 octets the primitive returned.
   */
  function DecryptRsa(k: KeyPair, cipher: seq<byte>): (r: Recovered)
    ensures r.Refused? <==> k.unseal(cipher).None? || Utf8.Decode(k.unseal(cipher).value).None?
    ensures r.Text? ==> Some(Utf8.Encode(r.text)) == k.unseal(cipher)
  {
    match k.unseal(cipher)
    case None => Refused
    case Some(plain) =>
      match Utf8.Decode(plain)
      case None => Refused
      case Some(text) =>
        Utf8.EncodeDecode(plain);
        Text(text)
  }

  /**
   * `encrypt`: the base 64 text of the ciphertext. Only the primitive's
   * capacity can make it fail, and that failure propagates.
   */
  function Encrypt(k: KeyPair, msg: string): (r: Result<string, Error>)
    ensures r.Failure? <==> |Utf8.Encode(msg)| > MaxPlainOctets
    ensures r.Failure? ==> r.error == OverflowError
    ensures r.Success? ==> Base64.IsPadded(r.value)
    ensures Sound(k) && r.Success? ==> |r.value| == 344
  {
    var cipher :- EncryptRsa(k, msg);
    Base64.EncodeIsPadded(cipher);
    Success(Base64.Encode(cipher))
  }

  /**
   * `decrypt`: base 64 decoding happens outside the `try`, so malformed text
   * raises; after it, every outcome is a non-empty string, and a refused or
   * empty plaintext reads as the placeholder.
   */
  function Decrypt(k: KeyPair, message: string): (r: Result<string, Error>)
    ensures r.Failure? <==> Base64.Decode(message).None?
    ensures r.Failure? ==> r.error == Base64Error
    ensures r.Success? ==> r.value != ""
    ensures r.Success? ==>
      var rec := DecryptRsa(k, Base64.Decode(message).value);
      if rec.Text? && rec.text != "" then r.value == rec.text else r.value == Placeholder
  {
    match Base64.Decode(message)
    case None => Failure(Base64Error)
    case Some(cipher) =>
      match DecryptRsa(k, cipher)
      case Text(text) => if text != "" then Success(text) else Success(Placeholder)
      case Refused => Success(Placeholder)
  }

  /** Round trip: a non-empty message within capacity reads back unchanged. */
  lemma DecryptEncrypt(k: KeyPair, msg: string)
    requires Sound(k)
    requires msg != [] && |Utf8.Encode(msg)| <= MaxPlainOctets
    ensures Encrypt(k, msg).Success?
    ensures Decrypt(k, Encrypt(k, msg).value) == Success(msg)
  {
    var plain := Utf8.Encode(msg);
    var cipher := k.seal(plain);
    Base64.DecodeEncode(cipher);
    Utf8.DecodeEncode(msg);
    assert DecryptRsa(k, cipher) == Text(msg);
  }

  /** The empty message is stored, but reads back as the placeholder. */
  lemma EmptyReadsAsPlaceholder(k: KeyPair)
    requires Sound(k)
    ensures Encrypt(k, "").Success?
    ensures Decrypt(k, Encrypt(k, "").value) == Success(Placeholder)
  {
    var cipher := k.seal(Utf8.Encode(""));
    Base64.DecodeEncode(cipher);
    Utf8.DecodeEncode("");
  }

  /**
   * A reading that is not the placeholder is the message some encryption
   * stored: it is the text whose UTF-8 the private key recovered.
   */
  lemma DecryptedTextWasSealed(k: KeyPair, message: string)
    requires Decrypt(k, message).Success? && Decrypt(k, message).value != Placeholder
    ensures k.unseal(Base64.Decode(message).value) == Some(Utf8.Encode(Decrypt(k, message).value))
  {
  }

  /** A message of more than 245 characters raises whatever its characters are. */
  lemma LongMessageRaises(k: KeyPair, msg: string)
    requires |msg| > MaxPlainOctets
    ensures Encrypt(k, msg) == Failure(OverflowError)
  {
  }

  /** Text whose length is not a multiple of four raises instead of reading as the placeholder. */
  lemma RaggedTextRaises(k: KeyPair, message: string)
    requires |message| % 4 != 0
    ensures Decrypt(k, message) == Failure(Base64Error)
  {
    Base64.DecodeRefusesRaggedLength(message);
  }
}

=== FILE: groups.dfy ===
/**
 * The channel layer as `ChatConsumer` uses it: named groups of channels,
 * and one inbox per channel. A group that loses its last member is
 * forgotten, as the channel layer discards empty groups.
 */
module Groups {

  /** The name the layer gives one WebSocket connection. */
  type ChannelId = string

  /** A `chat_message` event as `receive` builds it. */
  datatype Event = Event(message: string, sender: string, timestamp: nat)

  datatype Layer = Layer(groups: map<string, set<ChannelId>>, queues: map<ChannelId, seq<Event>>)

  const EmptyLayer: Layer := Layer(map[], map[])

  /** The channels of group `g`; a group the layer does not know has none. */
  function Members(l: Layer, g: string): set<ChannelId> {
    if g in l.groups then l.groups[g] else {}
  }

  /** The events delivered to channel `c` so far, oldest first. */
  function Queue(l: Layer, c: ChannelId): seq<Event> {
    if c in l.queues then l.queues[c] else []
  }

  /** The channel layer refuses group names of this many characters or more. */
  const MaxNameLength: nat := 100

  /** `n` is one of the ten code points from `zero` on. */
  predicate InBlock(n: int, zero: int) {
    zero <= n < zero + 10
  }

  /**
   * A character `\d` matches. In a `str` pattern Python's `\d` is every
   * decimal digit (Unicode general category Nd, Unicode 15.0), not only
   * '0' to '9': 68 blocks of ten, each named here by the code point of its
   * zero.
   */
  predicate IsDecimalDigit(c: char) {
    var n := c as int;
    || InBlock(n, 0x30) || InBlock(n, 0x660) || InBlock(n, 0x6F0) || InBlock(n, 0x7C0) || InBlock(n, 0x966) || InBlock(n, 0x9E6)
    || InBlock(n, 0xA66) || InBlock(n, 0xAE6) || InBlock(n, 0xB66) || InBlock(n, 0xBE6) || InBlock(n, 0xC66) || InBlock(n, 0xCE6)
    || InBlock(n, 0xD66) || InBlock(n, 0xDE6) || InBlock(n, 0xE50) || InBlock(n, 0xED0) || InBlock(n, 0xF20) || InBlock(n, 0x1040)
    || InBlock(n, 0x1090) || InBlock(n, 0x17E0) || InBlock(n, 0x1810) || InBlock(n, 0x1946) || InBlock(n, 0x19D0) || InBlock(n, 0x1A80)
    || InBlock(n, 0x1A90) || InBlock(n, 0x1B50) || InBlock(n, 0x1BB0) || InBlock(n, 0x1C40) || InBlock(n, 0x1C50) || InBlock(n, 0xA620)
    || InBlock(n, 0xA8D0) || InBlock(n, 0xA900) || InBlock(n, 0xA9D0) || InBlock(n, 0xA9F0) || InBlock(n, 0xAA50) || InBlock(n, 0xABF0)
    || InBlock(n, 0xFF10) || InBlock(n, 0x104A0) || InBlock(n, 0x10D30) || InBlock(n, 0x11066) || InBlock(n, 0x110F0) || InBlock(n, 0x11136)
    || InBlock(n, 0x111D0) || InBlock(n, 0x112F0) || InBlock(n, 0x11450) || InBlock(n, 0x114D0) || InBlock(n, 0x11650) || InBlock(n, 0x116C0)
    || InBlock(n, 0x11730) || InBlock(n, 0x118E0) || InBlock(n, 0x11950) || InBlock(n, 0x11C50) || InBlock(n, 0x11D50) || InBlock(n, 0x11DA0)
    || InBlock(n, 0x11F50) || InBlock(n, 0x16A60) || InBlock(n, 0x16AC0) || InBlock(n, 0x16B50) || InBlock(n, 0x1D7CE) || InBlock(n, 0x1D7D8)
    || InBlock(n, 0x1D7E2) || InBlock(n, 0x1D7EC) || InBlock(n, 0x1D7F6) || InBlock(n, 0x1E140) || InBlock(n, 0x1E2F0) || InBlock(n, 0x1E4F0)
    || InBlock(n, 0x1E950) || InBlock(n, 0x1FBF0)
  }

  /**
   * A character of the class `[a-zA-Z\d\-_.]` the layer checks group names
   * with: an ASCII letter, a decimal digit of any script, '-', '_' or '.'.
   */
  predicate IsGroupNameChar(c: char) {
    'a' <= c <= 'z' || 'A' <= c <= 'Z' || IsDecimalDigit(c) || c == '-' || c == '_' || c == '.'
  }

  /**
   * The group names the layer accepts; `group_add` raises TypeError for any
   * other. The pattern is anchored with `$`, which in Python also matches
   * just before a final newline, so one trailing '\n' is let through.
   */
  predicate ValidGroupName(g: string) {
    && 0 < |g| < MaxNameLength
    && ((forall i | 0 <= i < |g| :: IsGroupNameChar(g[i]))
        || (1 < |g| && g[|g| - 1] == '\n' && forall i | 0 <= i < |g| - 1 :: IsGroupNameChar(g[i])))
  }

  /** The layer keeps no empty group. */
  ghost predicate Tidy(l: Layer) {
    forall g | g in l.groups :: l.groups[g] != {}
  }

  /** `group_add`: `c` joins `g`; every other group and every inbox stays as it was. */
  function GroupAdd(l: Layer, g: string, c: ChannelId): (l': Layer)
    ensures Members(l', g) == Members(l, g) + {c}
    ensures forall h | h != g :: Members(l', h) == Members(l, h)
    ensures forall d :: Queue(l', d) == Queue(l, d)
    ensures Tidy(l) ==> Tidy(l')
  {
    l.(groups := l.groups[g := Members(l, g) + {c}])
  }

  /**
   * `group_discard`: `c` leaves `g`, whether or not it was a member; a group
   * left empty is removed; nothing else changes.
   */
  function GroupDiscard(l: Layer, g: string, c: ChannelId): (l': Layer)
    ensures Members(l', g) == Members(l, g) - {c}
    ensures forall h | h != g :: Members(l', h) == Members(l, h)
    ensures forall d :: Queue(l', d) == Queue(l, d)
    ensures Tidy(l) ==> Tidy(l')
  {
    var rest := Members(l, g) - {c};
    if rest == {} then l.(groups := l.groups - {g})
    else l.(groups := l.groups[g := rest])
  }

  /** `group_send`: every member of `g` receives `e` once; no other inbox and no group changes. */
  function GroupSend(l: Layer, g: string, e: Event): (l': Layer)
    ensures forall h :: Members(l', h) == Members(l, h)
    ensures forall d :: Queue(l', d) == if d in Members(l, g) then Queue(l, d) + [e] else Queue(l, d)
  {
    var targets := Members(l, g);
    l.(queues := map d | d in l.queues.Keys + targets ::
      if d in targets then Queue(l, d) + [e] else l.queues[d])
  }

  /** Leaving a group undoes joining it, for a channel that was not already a member. */
  lemma DiscardUndoesAdd(l: Layer, g: string, c: ChannelId)
    requires Tidy(l) && c !in Members(l, g)
    ensures GroupDiscard(GroupAdd(l, g, c), g, c) == l
  {
    var l' := GroupDiscard(GroupAdd(l, g, c), g, c);
    assert l'.queues == l.queues;
    if g in l.groups {
      assert l'.groups == l.groups;
    } else {
      assert Members(l, g) == {};
      assert l'.groups == l.groups;
    }
  }

  /** Joining twice is joining once, and so is leaving twice. */
  lemma AddAndDiscardIdempotent(l: Layer, g: string, c: ChannelId)
    ensures GroupAdd(GroupAdd(l, g, c), g, c) == GroupAdd(l, g, c)
    ensures GroupDiscard(GroupDiscard(l, g, c), g, c) == GroupDiscard(l, g, c)
  {
    var once := GroupDiscard(l, g, c);
    var twice := GroupDiscard(once, g, c);
    if Members(l, g) - {c} == {} {
      assert g !in once.groups;
      assert twice.groups == once.groups;
    } else {
      var rest := Members(l, g) - {c};
      assert Members(once, g) - {c} == rest;
      assert twice.groups == once.groups[g := rest] == once.groups;
    }
  }
}

=== FILE: models.dfy ===
/**
 * The tables of chat/models.py and the row operations the rest of the
 * application performs on them.
 *
 * Rows are kept in primary-key order, and a table's next key only grows, so
 * "the first/last row of a query" is the first/last element of a filtered
 * table. Timestamps come from an abstract clock that only moves forward.
 */
module Models {
  import opened Results
  import opened Errors
  import Tokens

  /** The value every text field of `User` takes when creation does not supply one. */
  const Default: string := "0"

  datatype User = User(id: nat, uid: string, name: string, userName: string, email: string, password: string, token: string)

  /**
   * The two participants are plain text columns with no uniqueness
   * constraint: nothing but the callers' look-up-before-create keeps a
   * pair from having two rooms.
   */
  datatype ChatRoom = ChatRoom(id: nat, user1: string, user2: string, createdAt: nat)

  /** A stored message: its room and sender are foreign keys, its text is ciphertext. */
  datatype Message = Message(id: nat, room: nat, sender: nat, text: string, timestamp: nat)

  datatype Db = Db(
    users: seq<User>, rooms: seq<ChatRoom>, messages: seq<Message>,
    nextUser: nat, nextRoom: nat, nextMessage: nat, clock: nat)

  /** A fresh database: no rows, keys start at 1, the clock at 0. */
  const Empty: Db := Db([], [], [], 1, 1, 1, 0)

  /** The outcome of Django's `objects.get(...)`: it raises unless exactly one row matches. */
  datatype Lookup<T> = NotFound | Found(row: T) | Multiple {
    /** The exception `get` raises, for outcomes other than `Found`. */
    function Raised(): Error
      requires !Found?
    {
      if NotFound? then DoesNotExist else MultipleObjectsReturned
    }
  }

  function Get<T>(rows: seq<T>, p: T -> bool): (r: Lookup<T>)
    ensures r.NotFound? <==> forall i | 0 <= i < |rows| :: !p(rows[i])
    ensures r.Multiple? <==> exists i, j | 0 <= i < j < |rows| :: p(rows[i]) && p(rows[j])
    ensures r.Found? ==> exists i | 0 <= i < |rows| :: rows[i] == r.row && p(r.row)
  {
    if rows == [] then NotFound
    else
      var rest := Get(rows[1..], p);
      assert forall i | 1 <= i < |rows| :: rows[i] == rows[1..][i - 1];
      if !p(rows[0]) then rest
      else if rest.NotFound? then Found(rows[0])
      else
        assert exists j | 0 <= j < |rows[1..]| :: p(rows[1..][j]);
        Multiple
  }

  /** The rows a query selects, in primary-key order. */
  function Filter<T>(rows: seq<T>, p: T -> bool): (r: seq<T>)
    ensures |r| <= |rows|
    ensures forall i | 0 <= i < |r| :: r[i] in rows && p(r[i])
    ensures forall i | 0 <= i < |rows| && p(rows[i]) :: rows[i] in r
  {
    if rows == [] then []
    else if p(rows[0]) then [rows[0]] + Filter(rows[1..], p)
    else Filter(rows[1..], p)
  }

  /** `.last()`: the row of a query with the largest primary key. */
  function Last<T>(rows: seq<T>): (r: Option<T>)
    ensures r.Some? <==> rows != []
    ensures r.Some? ==> r.value == rows[|rows| - 1]
  {
    if rows == [] then None else Some(rows[|rows| - 1])
  }

  function UserIds(db: Db): set<nat> { set u | u in db.users :: u.id }
  function RoomIds(db: Db): set<nat> { set r | r in db.rooms :: r.id }

  function UserNamed(db: Db, userName: string): Lookup<User> {
    Get(db.users, (u: User) => u.userName == userName)
  }

  function UserWithToken(db: Db, token: string): Lookup<User> {
    Get(db.users, (u: User) => u.token == token)
  }

  function UserWithId(db: Db, id: nat): Lookup<User> {
    Get(db.users, (u: User) => u.id == id)
  }

  function RoomWithId(db: Db, id: int): Lookup<ChatRoom> {
    Get(db.rooms, (r: ChatRoom) => r.id == id)
  }

  /** `Message.objects.filter(room=...)`: a room's messages, in primary-key order. */
  function MessagesOf(db: Db, room: nat): seq<Message> {
    Filter(db.messages, (m: Message) => m.room == room)
  }

  /** Keys increase along the user table and stay below the next key. */
  ghost predicate UsersOrdered(users: seq<User>, next: nat) {
    && (forall i, j | 0 <= i < j < |users| :: users[i].id < users[j].id)
    && (forall i | 0 <= i < |users| :: 0 < users[i].id < next)
  }

  /** Keys increase along the room table; no room was created after `clock`. */
  ghost predicate RoomsOrdered(rooms: seq<ChatRoom>, next: nat, clock: nat) {
    && (forall i, j | 0 <= i < j < |rooms| :: rooms[i].id < rooms[j].id)
    && (forall i | 0 <= i < |rooms| :: 0 < rooms[i].id < next && rooms[i].createdAt <= clock)
  }

  /** Keys increase along the message table and timestamps never decrease nor pass `clock`. */
  ghost predicate MessagesOrdered(messages: seq<Message>, next: nat, clock: nat) {
    && (forall i, j | 0 <= i < j < |messages| ::
          messages[i].id < messages[j].id && messages[i].timestamp <= messages[j].timestamp)
    && (forall i | 0 <= i < |messages| :: 0 < messages[i].id < next && messages[i].timestamp <= clock)
  }

  /** Both foreign keys of every message point at an existing row. */
  ghost predicate Linked(messages: seq<Message>, roomIds: set<nat>, userIds: set<nat>) {
    forall i | 0 <= i < |messages| :: messages[i].room in roomIds && messages[i].sender in userIds
  }

  /**
   * The database invariant: keys increase along each table and stay below
   * the next key to hand out; every message's room and sender exist;
   * timestamps never run ahead of the clock, and message timestamps do not
   * decrease along the table.
   */
  ghost predicate Valid(db: Db) {
    && 0 < db.nextUser && 0 < db.nextRoom && 0 < db.nextMessage
    && UsersOrdered(db.users, db.nextUser)
    && RoomsOrdered(db.rooms, db.nextRoom, db.clock)
    && MessagesOrdered(db.messages, db.nextMessage, db.clock)
    && Linked(db.messages, RoomIds(db), UserIds(db))
  }

  lemma EmptyIsValid()
    ensures Valid(Empty)
  {
  }

  /**
   * Rows are never rewritten: every message and room present after a step
   * that already existed before is unchanged (so `timestamp` and `created_at`
   * keep the value set at creation), keys are never reused and the clock
   * does not go back.
   */
  ghost predicate Preserves(db: Db, db': Db) {
    && db.clock <= db'.clock
    && db.nextUser <= db'.nextUser && db.nextRoom <= db'.nextRoom && db.nextMessage <= db'.nextMessage
    && (forall m | m in db'.messages && m.id < db.nextMessage :: m in db.messages)
    && (forall r | r in db'.rooms && r.id < db.nextRoom :: r in db.rooms)
  }

  /** Two steps that each rewrite no row rewrite no row together. */
  lemma PreservesTransitive(db: Db, db': Db, db'': Db)
    requires Preserves(db, db') && Preserves(db', db'')
    ensures Preserves(db, db'')
  {
  }

  /** A keyword argument of `User.objects.create`: left out, an explicit None, or a string. */
  datatype Arg = Omitted | Null | Str(s: string) {
    function Or(default: string): string requires !Null? {
      if Str? then s else default
    }

    /** The column value `v` is what this argument writes: the string given, or '0' when omitted. */
    predicate Wrote(v: string) {
      (Omitted? ==> v == Default) && (Str? ==> v == s)
    }
  }

  datatype UserArgs = UserArgs(uid: Arg, name: Arg, userName: Arg, email: Arg, password: Arg, token: Arg) {
    predicate HasNull() {
      uid.Null? || name.Null? || userName.Null? || email.Null? || password.Null? || token.Null?
    }
  }

  /**
   * `User.objects.create(...)`: a NULL in any of the NOT NULL text columns
   * raises IntegrityError and nothing is written; otherwise one user is
   * appended, every omitted field holding '0'.
   */
  function CreateUser(db: Db, args: UserArgs): (r: Result<(Db, User), Error>)
    ensures r.Failure? <==> args.HasNull()
    ensures r.Failure? ==> r.error == IntegrityError
    ensures r.Success? ==>
      var (db', u) := r.value;
      && db'.users == db.users + [u]
      && u.id == db.nextUser && db'.nextUser == db.nextUser + 1
      && args.uid.Wrote(u.uid) && args.name.Wrote(u.name) && args.userName.Wrote(u.userName)
      && args.email.Wrote(u.email) && args.password.Wrote(u.password) && args.token.Wrote(u.token)
      && db'.rooms == db.rooms && db'.messages == db.messages
  {
    if args.HasNull() then Failure(IntegrityError)
    else
      var u := User(db.nextUser, args.uid.Or(Default), args.name.Or(Default), args.userName.Or(Default),
                    args.email.Or(Default), args.password.Or(Default), args.token.Or(Default));
      Success((db.(users := db.users + [u], nextUser := db.nextUser + 1), u))
  }

  /** Write `token` to the user with key `id` and save it; no other row or field changes. */
  function SetToken(db: Db, id: nat, token: string): (db': Db)
    ensures |db'.users| == |db.users|
    ensures forall i | 0 <= i < |db.users| ::
      db'.users[i] == if db.users[i].id == id then db.users[i].(token := token) else db.users[i]
    ensures db'.rooms == db.rooms && db'.messages == db.messages
    ensures db'.nextUser == db.nextUser && db'.clock == db.clock
  {
    db.(users := seq(|db.users|, i requires 0 <= i < |db.users| =>
      if db.users[i].id == id then db.users[i].(token := token) else db.users[i]))
  }

  /**
   * `User.generate_token`: the user with key `id` gets a fresh 32-character
   * alphanumeric token and is saved; every other field of that row, every
   * other row, the other tables, the counters and the clock stay as they were.
   */
  function GenerateToken(db: Db, id: nat, picks: seq<nat>): (db': Db)
    requires |picks| >= Tokens.TokenLength
    ensures db' == db.(users := db'.users)
    ensures |db'.users| == |db.users|
    ensures forall i | 0 <= i < |db.users| :: db'.users[i] == db.users[i].(token := db'.users[i].token)
    ensures forall i | 0 <= i < |db.users| && db.users[i].id == id :: Tokens.IsToken(db'.users[i].token)
    ensures forall i | 0 <= i < |db.users| && db.users[i].id != id :: db'.users[i] == db.users[i]
    ensures forall i, j | 0 <= i < j < |db.users| && db.users[i].id == id && db.users[j].id == id ::
      db'.users[i].token == db'.users[j].token
  {
    SetToken(db, id, Tokens.CreateToken(picks))
  }

  /** A new room stamped with the advanced clock. */
  function AddRoom(db: Db, user1: string, user2: string, dt: nat): (r: (Db, ChatRoom))
    ensures r.0.rooms == db.rooms + [r.1]
    ensures r.1 == ChatRoom(db.nextRoom, user1, user2, db.clock + dt)
    ensures r.0.users == db.users && r.0.messages == db.messages
  {
    var room := ChatRoom(db.nextRoom, user1, user2, db.clock + dt);
    (db.(rooms := db.rooms + [room], nextRoom := db.nextRoom + 1, clock := db.clock + dt), room)
  }

  /** A new message stamped with the advanced clock. */
  function AddMessage(db: Db, room: nat, sender: nat, text: string, dt: nat): (db': Db)
    ensures db'.messages == db.messages + [Message(db.nextMessage, room, sender, text, db.clock + dt)]
    ensures db'.users == db.users && db'.rooms == db.rooms
  {
    var m := Message(db.nextMessage, room, sender, text, db.clock + dt);
    db.(messages := db.messages + [m], nextMessage := db.nextMessage + 1, clock := db.clock + dt)
  }

  /** The row selections the two cascades keep. */
  function OtherUser(id: nat): User -> bool { (u: User) => u.id != id }
  function NotSentBy(id: nat): Message -> bool { (m: Message) => m.sender != id }
  function OtherRoom(id: nat): ChatRoom -> bool { (r: ChatRoom) => r.id != id }
  function NotIn(room: nat): Message -> bool { (m: Message) => m.room != room }

  /** Deleting a user cascades to the messages it sent (`on_delete=CASCADE`); rooms name users by text and stay. */
  function DeleteUser(db: Db, id: nat): (db': Db)
    ensures forall u :: u in db'.users <==> u in db.users && u.id != id
    ensures forall m :: m in db'.messages <==> m in db.messages && m.sender != id
    ensures db'.rooms == db.rooms
  {
    db.(users := Filter(db.users, OtherUser(id)), messages := Filter(db.messages, NotSentBy(id)))
  }

  /** Deleting a room cascades to its messages. */
  function DeleteRoom(db: Db, id: nat): (db': Db)
    ensures forall r :: r in db'.rooms <==> r in db.rooms && r.id != id
    ensures forall m :: m in db'.messages <==> m in db.messages && m.room != id
    ensures db'.users == db.users
  {
    db.(rooms := Filter(db.rooms, OtherRoom(id)), messages := Filter(db.messages, NotIn(id)))
  }

  /** A query keeps the order of the table it selects from. */
  lemma {:induction false} FilterKeepsOrder<T>(rows: seq<T>, p: T -> bool, before: (T, T) -> bool)
    requires forall i, j | 0 <= i < j < |rows| :: before(rows[i], rows[j])
    ensures forall i, j | 0 <= i < j < |Filter(rows, p)| :: before(Filter(rows, p)[i], Filter(rows, p)[j])
  {
    if rows != [] {
      var tail := rows[1..];
      forall i, j | 0 <= i < j < |tail| ensures before(tail[i], tail[j]) {
        assert tail[i] == rows[i + 1] && tail[j] == rows[j + 1];
      }
      FilterKeepsOrder(tail, p, before);
      var rest := Filter(tail, p);
      var r := Filter(rows, p);
      if p(rows[0]) {
        assert r == [rows[0]] + rest;
        forall i, j | 0 <= i < j < |r| ensures before(r[i], r[j]) {
          if i == 0 {
            assert r[j] == rest[j - 1] && rest[j - 1] in tail;
            var k :| 0 <= k < |tail| && tail[k] == rest[j - 1];
            assert rows[k + 1] == r[j];
            assert before(rows[0], rows[k + 1]);
          } else {
            assert r[i] == rest[i - 1] && r[j] == rest[j - 1];
            assert before(rest[i - 1], rest[j - 1]);
          }
        }
      } else {
        assert r == rest;
      }
    }
  }

  /** In a valid database `.last()` of a room's messages is the one with the largest key. */
  lemma LastMessageIsNewest(db: Db, room: nat)
    requires Valid(db) && MessagesOf(db, room) != []
    ensures var ms := MessagesOf(db, room);
      forall i | 0 <= i < |ms| :: ms[i].id <= Last(ms).value.id
  {
    var ms := MessagesOf(db, room);
    FilterKeepsOrder(db.messages, (m: Message) => m.room == room, (a: Message, b: Message) => a.id < b.id);
    forall i | 0 <= i < |ms| ensures ms[i].id <= Last(ms).value.id {
      if i < |ms| - 1 {
        assert ms[i].id < ms[|ms| - 1].id;
      }
    }
  }

  lemma CreateUserKeepsValid(db: Db, args: UserArgs)
    requires Valid(db) && CreateUser(db, args).Success?
    ensures var db' := CreateUser(db, args).value.0; Valid(db') && Preserves(db, db')
  {
    var (db', u) := CreateUser(db, args).value;
    AppendUserKeepsValid(db, u);
    assert db' == db.(users := db.users + [u], nextUser := db.nextUser + 1);
  }

  lemma AppendUserKeepsValid(db: Db, u: User)
    requires Valid(db) && u.id == db.nextUser
    ensures var db' := db.(users := db.users + [u], nextUser := db.nextUser + 1);
      Valid(db') && Preserves(db, db')
  {
    var db' := db.(users := db.users + [u], nextUser := db.nextUser + 1);
    assert UserIds(db) <= UserIds(db') by {
      forall x | x in UserIds(db) ensures x in UserIds(db') {
        var v :| v in db.users && v.id == x;
        assert v in db'.users;
      }
    }
  }

  lemma SetTokenKeepsValid(db: Db, id: nat, token: string)
    requires Valid(db)
    ensures var db' := SetToken(db, id, token); Valid(db') && Preserves(db, db')
  {
    var db' := SetToken(db, id, token);
    assert UserIds(db) <= UserIds(db') by {
      forall x | x in UserIds(db) ensures x in UserIds(db') {
        var i :| 0 <= i < |db.users| && db.users[i].id == x;
        assert db'.users[i].id == x;
      }
    }
  }

  /** Issuing a token keeps the database well formed and loses no row. */
  lemma GenerateTokenKeepsValid(db: Db, id: nat, picks: seq<nat>)
    requires Valid(db) && |picks| >= Tokens.TokenLength
    ensures var db' := GenerateToken(db, id, picks); Valid(db') && Preserves(db, db')
  {
    SetTokenKeepsValid(db, id, Tokens.CreateToken(picks));
  }

  lemma AddRoomKeepsValid(db: Db, user1: string, user2: string, dt: nat)
    requires Valid(db)
    ensures var db' := AddRoom(db, user1, user2, dt).0; Valid(db') && Preserves(db, db')
  {
    var (db', room) := AddRoom(db, user1, user2, dt);
    assert RoomIds(db) <= RoomIds(db') by {
      forall x | x in RoomIds(db) ensures x in RoomIds(db') {
        var v :| v in db.rooms && v.id == x;
        assert v in db'.rooms;
      }
    }
  }

  /** Appending a message keeps the invariant when its room and sender exist. */
  lemma AddMessageKeepsValid(db: Db, room: nat, sender: nat, text: string, dt: nat)
    requires Valid(db) && room in RoomIds(db) && sender in UserIds(db)
    ensures var db' := AddMessage(db, room, sender, text, dt); Valid(db') && Preserves(db, db')
  {
  }

  /**
   * The invariant allows two rooms for the same pair of participants: the
   * tables declare no uniqueness for them.
   */
  lemma DuplicateRoomsAreValid(a: string, b: string)
    ensures exists db: Db ::
      && Valid(db) && |db.rooms| == 2 && db.rooms[0].id != db.rooms[1].id
      && db.rooms[0].user1 == db.rooms[1].user1 == a && db.rooms[0].user2 == db.rooms[1].user2 == b
  {
    var db := Db([], [ChatRoom(1, a, b, 0), ChatRoom(2, a, b, 0)], [], 1, 3, 1, 0);
    assert Valid(db);
  }

  /** Moving the clock forward keeps the invariant and rewrites no row. */
  lemma AdvanceKeepsValid(db: Db, clock: nat)
    requires Valid(db) && db.clock <= clock
    ensures Valid(db.(clock := clock)) && Preserves(db, db.(clock := clock))
  {
  }

  /** Every row of a query is a row of the table. */
  lemma FilterRowsAreRows<T>(rows: seq<T>, p: T -> bool, i: nat)
    requires i < |Filter(rows, p)|
    ensures exists k | 0 <= k < |rows| :: rows[k] == Filter(rows, p)[i]
  {
    assert Filter(rows, p)[i] in rows;
  }

  lemma FilterUsersOrdered(users: seq<User>, next: nat, p: User -> bool)
    requires UsersOrdered(users, next)
    ensures UsersOrdered(Filter(users, p), next)
  {
    var r := Filter(users, p);
    FilterKeepsOrder(users, p, (a: User, b: User) => a.id < b.id);
    forall i | 0 <= i < |r| ensures 0 < r[i].id < next {
      FilterRowsAreRows(users, p, i);
    }
  }

  lemma FilterRoomsOrdered(rooms: seq<ChatRoom>, next: nat, clock: nat, p: ChatRoom -> bool)
    requires RoomsOrdered(rooms, next, clock)
    ensures RoomsOrdered(Filter(rooms, p), next, clock)
  {
    var r := Filter(rooms, p);
    FilterKeepsOrder(rooms, p, (a: ChatRoom, b: ChatRoom) => a.id < b.id);
    forall i | 0 <= i < |r| ensures 0 < r[i].id < next && r[i].createdAt <= clock {
      FilterRowsAreRows(rooms, p, i);
    }
  }

  lemma FilterMessagesOrdered(messages: seq<Message>, next: nat, clock: nat, p: Message -> bool)
    requires MessagesOrdered(messages, next, clock)
    ensures MessagesOrdered(Filter(messages, p), next, clock)
  {
    var r := Filter(messages, p);
    FilterKeepsOrder(messages, p, (a: Message, b: Message) => a.id < b.id && a.timestamp <= b.timestamp);
    forall i | 0 <= i < |r| ensures 0 < r[i].id < next && r[i].timestamp <= clock {
      FilterRowsAreRows(messages, p, i);
    }
  }

  lemma DeleteUserKeepsValid(db: Db, id: nat)
    requires Valid(db)
    ensures Valid(DeleteUser(db, id))
  {
    FilterUsersOrdered(db.users, db.nextUser, OtherUser(id));
    FilterMessagesOrdered(db.messages, db.nextMessage, db.clock, NotSentBy(id));
    DeleteUserKeepsLinks(db, id);
  }

  lemma DeleteUserKeepsLinks(db: Db, id: nat)
    requires Valid(db)
    ensures var db' := DeleteUser(db, id); Linked(db'.messages, RoomIds(db'), UserIds(db'))
  {
    var db' := DeleteUser(db, id);
    forall i | 0 <= i < |db'.messages|
      ensures db'.messages[i].room in RoomIds(db') && db'.messages[i].sender in UserIds(db')
    {
      var m := db'.messages[i];
      assert m in db.messages && m.sender != id;
      var u :| u in db.users && u.id == m.sender;
      assert u in db'.users;
    }
  }

  lemma DeleteRoomKeepsValid(db: Db, id: nat)
    requires Valid(db)
    ensures Valid(DeleteRoom(db, id))
  {
    FilterRoomsOrdered(db.rooms, db.nextRoom, db.clock, OtherRoom(id));
    FilterMessagesOrdered(db.messages, db.nextMessage, db.clock, NotIn(id));
    DeleteRoomKeepsLinks(db, id);
  }

  lemma DeleteRoomKeepsLinks(db: Db, id: nat)
    requires Valid(db)
    ensures var db' := DeleteRoom(db, id); Linked(db'.messages, RoomIds(db'), UserIds(db'))
  {
    var db' := DeleteRoom(db, id);
    forall i | 0 <= i < |db'.messages|
      ensures db'.messages[i].room in RoomIds(db') && db'.messages[i].sender in UserIds(db')
    {
      var m := db'.messages[i];
      assert m in db.messages && m.room != id;
      var r :| r in db.rooms && r.id == m.room;
      assert r in db'.rooms;
    }
  }
}

=== FILE: prelude.dfy ===
/**
 * Absent values and raised exceptions. `Result` supports `:-`, so an
 * exception propagates out of a function the way it leaves a Python frame.
 */
module Results {

  /** An optional value, the model's stand-in for Python's `None`. */
  datatype Option<+T> = None | Some(value: T)

  /** A value or the exception that replaced it. */
  datatype Result<+T, +E> = Success(value: T) | Failure(error: E) {
    predicate IsFailure() { Failure? }

    function PropagateFailure<U>(): Result<U, E>
      requires Failure?
    {
      Failure(error)
    }

    function Extract(): T
      requires Success?
    {
      value
    }
  }
}

/** Octets, as the cipher and the text codecs see them. */
module Bytes {
  type byte = b: int | 0 <= b < 256
}

/**
 * The exceptions that can escape the modelled code. Each one aborts the
 * request or the socket event that raised it.
 */
module Errors {
  datatype Error =
    | DoesNotExist           // Model.DoesNotExist from a `get` that matched nothing
    | MultipleObjectsReturned // a `get` that matched more than one row
    | KeyError               // a missing key in a dict or in the session
    | IndexError             // `[0]` on an empty string or list
    | JsonDecodeError        // `json.loads` on text that is not JSON
    | TypeError              // an argument of the wrong class
    | ValueError             // an argument with an invalid value, or a view returning None
    | OverflowError          // a plaintext longer than the RSA key can carry
    | Base64Error            // `base64.b64decode` on text that is not base64
    | IntegrityError         // a NULL written to a NOT NULL column
    | AttributeError         // an attribute read before it was ever set
    | Http404                // `get_object_or_404` that matched nothing
}

=== FILE: rooms.dfy ===
/**
 * The room views of chat/views.py: `get_or_create_room`, `search_user`,
 * `get_user_chat_rooms` and `get_room_messages`.
 *
 * A room names its participants in two text columns. `search_user` writes
 * user names there; `get_or_create_room` passes `User` objects, which the
 * column stores as their default text, `User object (<id>)`.
 */
module Rooms {
  import opened Results
  import opened Errors
  import opened Models
  import opened Sessions
  import Crypt
  import Base64
  import Utf8

  /** The decimal digits of `n`, most significant first, without leading zeros. */
  function Digits(n: nat): (s: string)
    ensures |s| >= 1 && forall i | 0 <= i < |s| :: '0' <= s[i] <= '9'
    ensures n >= 10 <==> |s| >= 2
    decreases n
  {
    if n < 10 then [('0' as int + n) as char]
    else Digits(n / 10) + [('0' as int + n % 10) as char]
  }

  /** Different numbers have different digits. */
  lemma {:induction false} DigitsInjective(a: nat, b: nat)
    requires Digits(a) == Digits(b)
    ensures a == b
    decreases a
  {
    if a >= 10 {
      var da, db := Digits(a), Digits(b);
      assert da[..|da| - 1] == Digits(a / 10) && db[..|db| - 1] == Digits(b / 10);
      DigitsInjective(a / 10, b / 10);
      assert a % 10 == b % 10 by {
        assert da[|da| - 1] == ('0' as int + a % 10) as char;
        assert db[|db| - 1] == ('0' as int + b % 10) as char;
      }
    }
  }

  /** The text a `User` instance becomes in a text column: Django's default `str()` of a model object. */
  function ObjectLabel(id: nat): (l: string)
    ensures |l| == |Digits(id)| + 14 && l[..13] == "User object (" && l[|l| - 1] == ')'
    ensures forall i | 13 <= i < |l| - 1 :: '0' <= l[i] <= '9'
  {
    "User object (" + Digits(id) + ")"
  }

  /** Different users are stored as different texts. */
  lemma ObjectLabelInjective(a: nat, b: nat)
    requires ObjectLabel(a) == ObjectLabel(b)
    ensures a == b
  {
    var la, lb := ObjectLabel(a), ObjectLabel(b);
    assert |Digits(a)| == |Digits(b)|;
    assert Digits(a) == la[13..|la| - 1];
    assert Digits(b) == lb[13..|lb| - 1];
    DigitsInjective(a, b);
  }

  /** An argument of `get_or_create_room`: something other than a `User`, or a `User` that may be unsaved. */
  datatype Participant = NotAUser | Instance(id: Option<nat>)

  function PairedWith(user1: string, user2: string): ChatRoom -> bool {
    (r: ChatRoom) => r.user1 == user1 && r.user2 == user2
  }

  /**
   * `get_or_create_room`: the room whose first participant is the user with
   * the smaller id, created when there is none; the argument checks run
   * before the database is touched.
   */
  function GetOrCreateRoom(db: Db, a: Participant, b: Participant, dt: nat): (r: Result<(Db, ChatRoom), Error>)
    ensures (r.Failure? && r.error == TypeError) <==> a.NotAUser? || b.NotAUser?
    ensures (r.Failure? && r.error == ValueError) <==> a.Instance? && b.Instance? && (a.id.None? || b.id.None?)
    ensures r.Failure? ==> r.error in {TypeError, ValueError, MultipleObjectsReturned}
    ensures (r.Failure? && r.error == MultipleObjectsReturned) <==>
      && a.Instance? && b.Instance? && a.id.Some? && b.id.Some?
      && var lo := if a.id.value <= b.id.value then a.id.value else b.id.value;
         var hi := if a.id.value <= b.id.value then b.id.value else a.id.value;
         exists i, j | 0 <= i < j < |db.rooms| ::
           && db.rooms[i].user1 == ObjectLabel(lo) && db.rooms[i].user2 == ObjectLabel(hi)
           && db.rooms[j].user1 == ObjectLabel(lo) && db.rooms[j].user2 == ObjectLabel(hi)
    ensures r.Success? ==>
      var (db', room) := r.value;
      var lo := if a.id.value <= b.id.value then a.id.value else b.id.value;
      var hi := if a.id.value <= b.id.value then b.id.value else a.id.value;
      && room.user1 == ObjectLabel(lo) && room.user2 == ObjectLabel(hi)
      && room in db'.rooms && db'.users == db.users && db'.messages == db.messages
      && (db' == db || (db'.rooms == db.rooms + [room] &&
            forall i | 0 <= i < |db.rooms| :: !(db.rooms[i].user1 == room.user1 && db.rooms[i].user2 == room.user2)))
  {
    if a.NotAUser? || b.NotAUser? then Failure(TypeError)
    else if a.id.None? || b.id.None? then Failure(ValueError)
    else
      var lo := if a.id.value <= b.id.value then a.id.value else b.id.value;
      var hi := if a.id.value <= b.id.value then b.id.value else a.id.value;
      match Get(db.rooms, PairedWith(ObjectLabel(lo), ObjectLabel(hi)))
      case Found(room) => Success((db, room))
      case Multiple => Failure(MultipleObjectsReturned)
      case NotFound =>
        var (db', room) := AddRoom(db, ObjectLabel(lo), ObjectLabel(hi), dt);
        Success((db', room))
  }

  /** The order of the two users does not matter. */
  lemma GetOrCreateRoomSymmetric(db: Db, a: Participant, b: Participant, dt: nat)
    ensures GetOrCreateRoom(db, a, b, dt) == GetOrCreateRoom(db, b, a, dt)
  {
  }

  /** Asking again, in either order, returns the same room and creates nothing. */
  lemma GetOrCreateRoomIdempotent(db: Db, a: Participant, b: Participant, dt: nat, dt2: nat)
    requires GetOrCreateRoom(db, a, b, dt).Success?
    ensures var (db', room) := GetOrCreateRoom(db, a, b, dt).value;
      GetOrCreateRoom(db', b, a, dt2) == Success((db', room))
  {
    var lo := if a.id.value <= b.id.value then a.id.value else b.id.value;
    var hi := if a.id.value <= b.id.value then b.id.value else a.id.value;
    var p := PairedWith(ObjectLabel(lo), ObjectLabel(hi));
    if Get(db.rooms, p).NotFound? {
      var (db', room) := GetOrCreateRoom(db, a, b, dt).value;
      GetAppendFound(db.rooms, room, p);
    }
  }

  /** A row appended to a table where nothing matches is what `get` then finds. */
  lemma GetAppendFound<T>(rows: seq<T>, x: T, p: T -> bool)
    requires forall i | 0 <= i < |rows| :: !p(rows[i])
    requires p(x)
    ensures Get(rows + [x], p) == Found(x)
  {
    var all := rows + [x];
    assert all[|rows|] == x;
    forall i | 0 <= i < |rows| ensures !p(all[i]) {
      assert all[i] == rows[i];
    }
    var g := Get(all, p);
    assert !g.NotFound?;
    assert !g.Multiple?;
    var k :| 0 <= k < |all| && all[k] == g.row && p(g.row);
    assert k == |rows|;
  }

  /** Rooms joining two names, in either order. */
  function Between(a: string, b: string): ChatRoom -> bool {
    (r: ChatRoom) => (r.user1 == a && r.user2 == b) || (r.user1 == b && r.user2 == a)
  }

  /** Rooms one of whose participants is `name`. */
  function Involves(name: string): ChatRoom -> bool {
    (r: ChatRoom) => r.user1 == name || r.user2 == name
  }

  /**
   * The either-order look-up of `search_user`: the first room joining the
   * two names, or a new room `(mine, theirs)` when there is none.
   */
  function FindOrCreate(db: Db, mine: string, theirs: string, dt: nat): (r: (Db, ChatRoom))
    ensures Between(mine, theirs)(r.1) && r.1 in r.0.rooms
    ensures r.0.users == db.users && r.0.messages == db.messages
    ensures Filter(db.rooms, Between(mine, theirs)) != [] ==> r.0 == db
    ensures Filter(db.rooms, Between(mine, theirs)) == [] ==>
      r.0.rooms == db.rooms + [r.1] && r.1.user1 == mine && r.1.user2 == theirs
  {
    var existing := Filter(db.rooms, Between(mine, theirs));
    if existing != [] then (db, existing[0])
    else AddRoom(db, mine, theirs, dt)
  }

  /** What a room listing shows of the room's newest message. */
  datatype Preview = Preview(text: string, time: Option<nat>)

  /**
   * The preview of a room: the decrypted newest message and its time, or
   * empty text without a time when the room has none. Text that is not
   * base 64 raises.
   */
  function PreviewOf(k: Crypt.KeyPair, db: Db, roomId: nat): (r: Result<Preview, Error>)
    ensures r.Failure? <==> MessagesOf(db, roomId) != [] && Base64.Decode(Last(MessagesOf(db, roomId)).value.text).None?
    ensures r.Success? ==> (r.value.text == "" <==> MessagesOf(db, roomId) == [])
    ensures r.Success? ==> (r.value.time.None? <==> MessagesOf(db, roomId) == [])
    ensures r.Success? && MessagesOf(db, roomId) != [] ==>
      var m := Last(MessagesOf(db, roomId)).value;
      r.value == Preview(Crypt.Decrypt(k, m.text).value, Some(m.timestamp))
  {
    match Last(MessagesOf(db, roomId))
    case None => Success(Preview("", None))
    case Some(m) =>
      var text :- Crypt.Decrypt(k, m.text);
      Success(Preview(text, Some(m.timestamp)))
  }

  datatype Reply = Hit(user: User, roomId: nat, preview: Preview) | Miss(error: string)

  const InvalidRequest: string := "Invalid request"
  const Unexpected: string := "An unexpected error occurred"

  function NoSuchUser(userName: string): string {
    userName + " does not exist"
  }

  /**
   * Whether a search gets as far as the room look-up: an AJAX request with a
   * valid form, a user of that name, and a session token held by one user.
   */
  predicate ReachesRoom(db: Db, ajax: bool, userName: Option<string>, session: Session) {
    && ajax && userName.Some?
    && UserNamed(db, userName.value).Found?
    && SessionToken(session).Success?
    && UserWithToken(db, SessionToken(session).value).Found?
  }

  /**
   * The part of `search_user` after both users are found: find or create
   * their room, then read its newest message; a failure to read it is
   * answered with the generic error.
   */
  function Answer(k: Crypt.KeyPair, db: Db, me: User, user: User, dt: nat): (r: (Db, Reply))
    ensures var (db', room) := FindOrCreate(db, me.userName, user.userName, dt);
      var ms := MessagesOf(db', room.id);
      && r.0 == db'
      && (r.1.Hit? <==> ms == [] || Base64.Decode(Last(ms).value.text).Some?)
      && (r.1.Miss? ==> r.1.error == Unexpected)
      && (r.1.Hit? ==> r.1 == Hit(user, room.id, PreviewOf(k, db', room.id).value))
      && (r.1.Hit? ==> exists i | 0 <= i < |db'.rooms| :: db'.rooms[i] == room && Between(me.userName, user.userName)(room))
    ensures r.0.users == db.users && r.0.messages == db.messages
    ensures r.0 == db || (
      && Filter(db.rooms, Between(me.userName, user.userName)) == []
      && r.0.rooms == db.rooms + [ChatRoom(db.nextRoom, me.userName, user.userName, db.clock + dt)])
    ensures r.1.Hit? ==> exists i | 0 <= i < |r.0.rooms| :: r.0.rooms[i].id == r.1.roomId && Involves(user.userName)(r.0.rooms[i])
    ensures r.1.Hit? ==> (r.1.preview.text == "" <==> MessagesOf(r.0, r.1.roomId) == [])
  {
    var (db', room) := FindOrCreate(db, me.userName, user.userName, dt);
    match PreviewOf(k, db', room.id)
    case Failure(_) => (db', Miss(Unexpected))
    case Success(preview) => (db', Hit(user, room.id, preview))
  }

  /**
   * `search_user`. Every exception is answered: DoesNotExist (of either
   * user) as "<name> does not exist", anything else as the generic error.
   * A search that reaches the look-up finds or creates the room joining the
   * signed-in user and the searched one, and answers with it unless reading
   * its newest message raises. A room created before that failure stays
   * created.
   */
  function SearchUser(k: Crypt.KeyPair, db: Db, ajax: bool, userName: Option<string>, session: Session, dt: nat): (r: (Db, Reply))
    ensures !ajax || userName.None? ==> r == (db, Miss(InvalidRequest))
    ensures !ReachesRoom(db, ajax, userName, session) ==> r.0 == db && r.1.Miss?
    ensures ajax && userName.Some? && !ReachesRoom(db, ajax, userName, session) ==>
      var n := userName.value;
      var missing := UserNamed(db, n).NotFound? ||
        (UserNamed(db, n).Found? && SessionToken(session).Success? && UserWithToken(db, SessionToken(session).value).NotFound?);
      r.1 == Miss(if missing then NoSuchUser(n) else Unexpected)
    ensures r.0.users == db.users && r.0.messages == db.messages
    ensures r.0 == db || (
      && ReachesRoom(db, ajax, userName, session)
      && var me := UserWithToken(db, SessionToken(session).value).row;
         && Filter(db.rooms, Between(me.userName, userName.value)) == []
         && r.0.rooms == db.rooms + [ChatRoom(db.nextRoom, me.userName, userName.value, db.clock + dt)])
    ensures ReachesRoom(db, ajax, userName, session) ==>
      var me := UserWithToken(db, SessionToken(session).value).row;
      var (db', room) := FindOrCreate(db, me.userName, userName.value, dt);
      var ms := MessagesOf(db', room.id);
      && r.0 == db'
      && (r.1.Hit? <==> ms == [] || Base64.Decode(Last(ms).value.text).Some?)
      && (r.1.Miss? ==> r.1.error == Unexpected)
      && (r.1.Hit? ==>
            && r.1.user == UserNamed(db, userName.value).row
            && r.1.roomId == room.id
            && r.1.preview == PreviewOf(k, db', room.id).value
            && exists i | 0 <= i < |r.0.rooms| :: r.0.rooms[i] == room && Between(me.userName, userName.value)(room))
    ensures r.1.Hit? ==>
      && r.1.user in db.users && r.1.user.userName == userName.value
      && exists i | 0 <= i < |r.0.rooms| :: r.0.rooms[i].id == r.1.roomId && Involves(userName.value)(r.0.rooms[i])
    ensures r.1.Hit? ==> (r.1.preview.text == "" <==> MessagesOf(r.0, r.1.roomId) == [])
  {
    if !ajax || userName.None? then (db, Miss(InvalidRequest))
    else
      var name := userName.value;
      match UserNamed(db, name)
      case NotFound => (db, Miss(NoSuchUser(name)))
      case Multiple => (db, Miss(Unexpected))
      case Found(user) =>
        match SessionToken(session)
        case Failure(_) => (db, Miss(Unexpected))
        case Success(token) =>
          match UserWithToken(db, token)
          case NotFound => (db, Miss(NoSuchUser(name)))
          case Multiple => (db, Miss(Unexpected))
          case Found(me) => Answer(k, db, me, user, dt)
  }

  /** Searching again finds the room the first search found or made: no second room appears. */
  lemma SearchRepeatAddsNoRoom(k: Crypt.KeyPair, db: Db, ajax: bool, userName: Option<string>, session: Session, dt: nat, dt2: nat)
    requires ReachesRoom(db, ajax, userName, session)
    ensures var db1 := SearchUser(k, db, ajax, userName, session, dt).0;
      SearchUser(k, db1, ajax, userName, session, dt2).0 == db1
  {
    var name := userName.value;
    var user := UserNamed(db, name).row;
    var me := UserWithToken(db, SessionToken(session).value).row;
    var (db1, room) := FindOrCreate(db, me.userName, user.userName, dt);
    assert SearchUser(k, db, ajax, userName, session, dt).0 == db1;
    assert room in Filter(db1.rooms, Between(me.userName, user.userName));
  }

  /** A room stored with the two names the other way round is found, and nothing is created. */
  lemma SearchFindsEitherOrder(
    k: Crypt.KeyPair, db: Db, ajax: bool, userName: Option<string>, session: Session, dt: nat, room: ChatRoom)
    requires ReachesRoom(db, ajax, userName, session)
    requires room in db.rooms && room.user1 == userName.value
    requires room.user2 == UserWithToken(db, SessionToken(session).value).row.userName
    ensures SearchUser(k, db, ajax, userName, session, dt).0 == db
  {
    var me := UserWithToken(db, SessionToken(session).value).row;
    assert room in Filter(db.rooms, Between(me.userName, userName.value));
  }

  /** One line of the room listing: the room, the other participant, and the preview. */
  datatype Entry = Entry(roomId: nat, other: string, preview: Preview)

  /** The participant of `room` who is not `name`, as the listing reports it. */
  function Other(room: ChatRoom, name: string): string {
    if room.user1 == name then room.user2 else room.user1
  }

  function Entries(k: Crypt.KeyPair, db: Db, rooms: seq<ChatRoom>, name: string): (r: Result<seq<Entry>, Error>)
    ensures r.Failure? <==> exists i | 0 <= i < |rooms| :: PreviewOf(k, db, rooms[i].id).Failure?
    ensures r.Success? <==> forall i | 0 <= i < |rooms| :: PreviewOf(k, db, rooms[i].id).Success?
    ensures r.Success? ==> |r.value| == |rooms| && forall i | 0 <= i < |rooms| ::
      r.value[i] == Entry(rooms[i].id, Other(rooms[i], name), PreviewOf(k, db, rooms[i].id).value)
  {
    if rooms == [] then Success([])
    else
      match PreviewOf(k, db, rooms[0].id)
      case Failure(e) => Failure(e)
      case Success(preview) =>
        match Entries(k, db, rooms[1..], name)
        case Failure(e) =>
          assert forall i | 0 <= i < |rooms[1..]| :: rooms[1..][i] == rooms[i + 1];
          Failure(e)
        case Success(rest) =>
          assert forall i | 1 <= i < |rooms| :: rooms[i] == rooms[1..][i - 1];
          Success([Entry(rooms[0].id, Other(rooms[0], name), preview)] + rest)
  }

  /** The holder of the session's token; `.get` raises unless there is exactly one. */
  function SessionUser(db: Db, session: Session): (r: Result<User, Error>)
    ensures r.Failure? <==> SessionToken(session).Failure? || !UserWithToken(db, SessionToken(session).value).Found?
    ensures r.Failure? ==> (r.error ==
      if SessionToken(session).Failure? then SessionToken(session).error
      else if UserWithToken(db, SessionToken(session).value).NotFound? then DoesNotExist
      else MultipleObjectsReturned)
    ensures r.Success? ==> r.value in db.users && r.value.token == SessionToken(session).value
  {
    var token :- SessionToken(session);
    match UserWithToken(db, token)
    case Found(u) => Success(u)
    case NotFound => Failure(DoesNotExist)
    case Multiple => Failure(MultipleObjectsReturned)
  }

  /**
   * `get_user_chat_rooms`: one entry per room naming the session's user as
   * either participant, each with the other participant and the newest
   * message. It fails when the session's user cannot be found, or when the
   * newest message of one of those rooms cannot be read.
   */
  function GetUserChatRooms(k: Crypt.KeyPair, db: Db, session: Session): (r: Result<seq<Entry>, Error>)
    ensures SessionUser(db, session).Failure? ==> r == Failure(SessionUser(db, session).error)
    ensures SessionUser(db, session).Success? ==>
      var name := SessionUser(db, session).value.userName;
      var rooms := Filter(db.rooms, Involves(name));
      (r.Success? <==> forall i | 0 <= i < |rooms| :: PreviewOf(k, db, rooms[i].id).Success?)
    ensures r.Success? ==>
      var name := SessionUser(db, session).value.userName;
      var rooms := Filter(db.rooms, Involves(name));
      && |r.value| == |rooms|
      && forall i | 0 <= i < |rooms| ::
           && r.value[i].roomId == rooms[i].id && r.value[i].other == Other(rooms[i], name)
           && r.value[i].preview == PreviewOf(k, db, rooms[i].id).value
           && (r.value[i].preview.text == "" <==> MessagesOf(db, rooms[i].id) == [])
  {
    match SessionUser(db, session)
    case Failure(e) => Failure(e)
    case Success(u) =>
      var rooms := Filter(db.rooms, Involves(u.userName));
      assert Involves(SessionUser(db, session).value.userName) == Involves(u.userName);
      assert Filter(db.rooms, Involves(SessionUser(db, session).value.userName)) == rooms;
      Entries(k, db, rooms, u.userName)
  }

  /**
   * The listing holds exactly the user's rooms: a room of the database is
   * listed if and only if the user's name is one of its participants.
   */
  lemma ListingIsExactlyTheUsersRooms(k: Crypt.KeyPair, db: Db, session: Session, room: ChatRoom)
    requires Valid(db) && room in db.rooms
    requires GetUserChatRooms(k, db, session).Success?
    ensures var es := GetUserChatRooms(k, db, session).value;
      var name := SessionUser(db, session).value.userName;
      (exists i | 0 <= i < |es| :: es[i].roomId == room.id) <==> (room.user1 == name || room.user2 == name)
  {
    var es := GetUserChatRooms(k, db, session).value;
    var name := SessionUser(db, session).value.userName;
    var rooms := Filter(db.rooms, Involves(name));
    if room.user1 == name || room.user2 == name {
      assert room in rooms;
      var i :| 0 <= i < |rooms| && rooms[i] == room;
      assert es[i].roomId == room.id;
    }
    if i :| 0 <= i < |es| && es[i].roomId == room.id {
      assert rooms[i] in db.rooms && Involves(name)(rooms[i]);
      var a :| 0 <= a < |db.rooms| && db.rooms[a] == room;
      var b :| 0 <= b < |db.rooms| && db.rooms[b] == rooms[i];
      assert a == b;
      assert room == rooms[i];
    }
  }

  /** One message as the history shows it: the sender's name, the readable text and the time. */
  datatype Line = Line(sender: string, content: string, timestamp: nat)

  /** One message as the history shows it; the sender is read before the text is decrypted. */
  function LineOf(k: Crypt.KeyPair, db: Db, m: Message): (r: Result<Line, Error>)
    ensures r.Success? <==> UserWithId(db, m.sender).Found? && Crypt.Decrypt(k, m.text).Success?
    ensures r.Success? ==>
      r.value == Line(UserWithId(db, m.sender).row.userName, Crypt.Decrypt(k, m.text).value, m.timestamp)
    ensures r.Failure? ==> (r.error ==
      if UserWithId(db, m.sender).NotFound? then DoesNotExist
      else if UserWithId(db, m.sender).Multiple? then MultipleObjectsReturned
      else Base64Error)
  {
    match UserWithId(db, m.sender)
    case NotFound => Failure(DoesNotExist)
    case Multiple => Failure(MultipleObjectsReturned)
    case Found(u) =>
      var content :- Crypt.Decrypt(k, m.text);
      Success(Line(u.userName, content, m.timestamp))
  }

  /** The list comprehension over a room's messages: the first message that cannot be shown raises. */
  function Lines(k: Crypt.KeyPair, db: Db, ms: seq<Message>): (r: Result<seq<Line>, Error>)
    ensures r.Success? <==> forall i | 0 <= i < |ms| :: LineOf(k, db, ms[i]).Success?
    ensures r.Success? ==> |r.value| == |ms| && forall i | 0 <= i < |ms| :: r.value[i] == LineOf(k, db, ms[i]).value
  {
    if ms == [] then Success([])
    else
      match LineOf(k, db, ms[0])
      case Failure(e) => Failure(e)
      case Success(line) =>
        match Lines(k, db, ms[1..])
        case Failure(e) =>
          assert exists i | 0 <= i < |ms[1..]| :: LineOf(k, db, ms[1..][i]).Failure?;
          Failure(e)
        case Success(rest) =>
          assert forall i | 1 <= i < |ms| :: ms[i] == ms[1..][i - 1];
          Success([line] + rest)
  }

  /** Reading a history never answers 404: that is reserved for the room look-up. */
  lemma {:induction false} LinesNeverNotFound(k: Crypt.KeyPair, db: Db, ms: seq<Message>)
    ensures Lines(k, db, ms).Failure? ==> Lines(k, db, ms).error in {DoesNotExist, MultipleObjectsReturned, Base64Error}
    decreases |ms|
  {
    if ms != [] && LineOf(k, db, ms[0]).Success? {
      LinesNeverNotFound(k, db, ms[1..]);
    }
  }

  /**
   * `get_room_messages`: a request other than GET returns no response, which
   * Django turns into ValueError; an unknown room is 404; otherwise one line
   * per message of the room.
   */
  function GetRoomMessages(k: Crypt.KeyPair, db: Db, isGet: bool, roomId: int): (r: Result<seq<Line>, Error>)
    ensures !isGet ==> r == Failure(ValueError)
    ensures isGet ==> (r == Failure(Http404) <==> forall i | 0 <= i < |db.rooms| :: db.rooms[i].id != roomId)
    ensures isGet && RoomWithId(db, roomId).Multiple? ==> r == Failure(MultipleObjectsReturned)
    ensures isGet && roomId >= 0 && RoomWithId(db, roomId).Found? ==>
      var ms := MessagesOf(db, roomId);
      r.Success? <==> forall i | 0 <= i < |ms| ::
        Crypt.Decrypt(k, ms[i].text).Success? && UserWithId(db, ms[i].sender).Found?
    ensures r.Success? ==> roomId >= 0 && |r.value| == |MessagesOf(db, roomId)| && forall i | 0 <= i < |r.value| ::
      var m := MessagesOf(db, roomId)[i];
      && Crypt.Decrypt(k, m.text).Success?
      && r.value[i].content == Crypt.Decrypt(k, m.text).value
      && r.value[i].timestamp == m.timestamp
      && UserWithId(db, m.sender).Found? && r.value[i].sender == UserWithId(db, m.sender).row.userName
  {
    if !isGet then Failure(ValueError)
    else
      match RoomWithId(db, roomId)
      case NotFound => Failure(Http404)
      case Multiple => Failure(MultipleObjectsReturned)
      case Found(room) =>
        LinesNeverNotFound(k, db, MessagesOf(db, room.id));
        Lines(k, db, MessagesOf(db, room.id))
  }

  /** The history is in ascending timestamp order: the table's key order already is. */
  lemma HistoryAscending(k: Crypt.KeyPair, db: Db, roomId: int)
    requires Valid(db) && GetRoomMessages(k, db, true, roomId).Success?
    ensures var ls := GetRoomMessages(k, db, true, roomId).value;
      forall i, j | 0 <= i < j < |ls| :: ls[i].timestamp <= ls[j].timestamp
  {
    FilterKeepsOrder(db.messages, (m: Message) => m.room == roomId as nat,
      (a: Message, b: Message) => a.timestamp <= b.timestamp);
  }

  /** A message stored through the relay reads back as sent in the room's history. */
  lemma HistoryReadsBack(k: Crypt.KeyPair, db: Db, roomId: int, i: nat, message: string)
    requires Crypt.Sound(k) && GetRoomMessages(k, db, true, roomId).Success?
    requires i < |MessagesOf(db, roomId)|
    requires message != [] && |Utf8.Encode(message)| <= Crypt.MaxPlainOctets
    requires MessagesOf(db, roomId)[i].text == Crypt.Encrypt(k, message).value
    ensures GetRoomMessages(k, db, true, roomId).value[i].content == message
  {
    Crypt.DecryptEncrypt(k, message);
  }
}

=== FILE: sessions.dfy ===
/**
 * The `'token'` entry of a Django session, as the views read and write it.
 * Login and registration store a one-element list; nothing in the model
 * stores a bare string, but a session may hold one.
 */
module Sessions {
  import opened Results
  import opened Errors

  datatype SessionValue = Text(s: string) | Tokens(items: seq<string>)

  /** The session's `'token'` entry, `None` when the key is absent. */
  type Session = Option<SessionValue>

  /** Python truthiness: an empty string or list is false. */
  predicate Truthy(v: SessionValue) {
    match v
    case Text(s) => s != []
    case Tokens(items) => items != []
  }

  /**
   * `request.session['token'][0]`: KeyError without the entry, IndexError
   * when it is empty; a string yields its first character, a list its first
   * element.
   */
  function SessionToken(session: Session): (r: Result<string, Error>)
    ensures session.None? ==> r == Failure(KeyError)
    ensures session.Some? ==> (r.Failure? <==> !Truthy(session.value))
    ensures session.Some? && r.Failure? ==> r.error == IndexError
    ensures r.Success? && session.value.Tokens? ==> r.value == session.value.items[0]
    ensures r.Success? && session.value.Text? ==> r.value == session.value.s[..1]
  {
    match session
    case None => Failure(KeyError)
    case Some(Text(s)) => if s == [] then Failure(IndexError) else Success(s[..1])
    case Some(Tokens(items)) => if items == [] then Failure(IndexError) else Success(items[0])
  }

  /** Python's `repr` of a string without quotes or backslashes in it. */
  function Quoted(s: string): string {
    "'" + s + "'"
  }

  function JoinQuoted(items: seq<string>): string {
    if items == [] then []
    else if |items| == 1 then Quoted(items[0])
    else Quoted(items[0]) + ", " + JoinQuoted(items[1..])
  }

  /**
   * The text a text column is compared with when the raw value is used in a
   * lookup: a string as it is, a list as Python prints it.
   */
  function AsText(v: SessionValue): (t: string)
    ensures v.Text? ==> t == v.s
    ensures v.Tokens? ==> |t| >= 2 && t[0] == '[' && t[|t| - 1] == ']'
  {
    match v
    case Text(s) => s
    case Tokens(items) => "[" + JoinQuoted(items) + "]"
  }
}

=== FILE: tokens.dfy ===
/**
 * Session tokens as `create_token` and `User.generate_token` draw them: 32
 * characters, each chosen from `string.ascii_letters + string.digits`.
 * The random source is a parameter: `picks[i]` selects the i-th character.
 */
module Tokens {

  const TokenLength: nat := 32

  /** The 62-character alphabet, lower-case letters first, as `ascii_letters + digits` lists it. */
  const AlphabetSize: nat := 62

  function AlphabetChar(i: nat): (c: char)
    requires i < AlphabetSize
  {
    if i < 26 then ('a' as int + i) as char
    else if i < 52 then ('A' as int + (i - 26)) as char
    else ('0' as int + (i - 52)) as char
  }

  predicate IsTokenChar(c: char) {
    'a' <= c <= 'z' || 'A' <= c <= 'Z' || '0' <= c <= '9'
  }

  /** The shape of a generated token. */
  predicate IsToken(t: string) {
    |t| == TokenLength && forall i | 0 <= i < |t| :: IsTokenChar(t[i])
  }

  /** The index of a token character in the alphabet. */
  function IndexOf(c: char): (i: nat)
    requires IsTokenChar(c)
    ensures i < AlphabetSize && AlphabetChar(i) == c
  {
    if 'a' <= c <= 'z' then c as int - 'a' as int
    else if 'A' <= c <= 'Z' then c as int - 'A' as int + 26
    else c as int - '0' as int + 52
  }

  /** One character per pick, each pick reduced to the alphabet. */
  function Draw(picks: seq<nat>): (t: string)
    ensures |t| == |picks|
    ensures forall i | 0 <= i < |t| :: IsTokenChar(t[i])
  {
    if picks == [] then []
    else [AlphabetChar(picks[0] % AlphabetSize)] + Draw(picks[1..])
  }

  /** `create_token()`: the first 32 picks of the random source make the token. */
  function CreateToken(picks: seq<nat>): (t: string)
    requires |picks| >= TokenLength
    ensures IsToken(t)
  {
    Draw(picks[..TokenLength])
  }

  /** Every string of the token shape can be drawn: the shape is all that is promised. */
  lemma {:induction false} EveryTokenCanBeDrawn(t: string)
    requires IsToken(t)
    ensures exists picks: seq<nat> :: |picks| == TokenLength && CreateToken(picks) == t
  {
    var picks := DrawIndices(t);
    assert picks[..TokenLength] == picks;
    assert CreateToken(picks) == t;
  }

  /** The picks that draw a given string of token characters. */
  function DrawIndices(t: string): (picks: seq<nat>)
    requires forall i | 0 <= i < |t| :: IsTokenChar(t[i])
    ensures |picks| == |t| && Draw(picks) == t
  {
    if t == [] then []
    else
      var rest := DrawIndices(t[1..]);
      assert Draw([IndexOf(t[0])] + rest) == [t[0]] + Draw(rest) by {
        assert ([IndexOf(t[0])] + rest)[1..] == rest;
      }
      assert [t[0]] + t[1..] == t;
      [IndexOf(t[0])] + rest
  }
}

=== FILE: utf8.dfy ===
/**
 * UTF-8 as Python's `str.encode('utf-8')` and strict `bytes.decode('utf-8')`
 * use it: every Unicode scalar value becomes one to four octets, and decoding
 * refuses truncated sequences, overlong forms, surrogates and code points
 * above U+10FFFF.
 */
module Utf8 {
  import opened Results
  import opened Bytes

  /** The octets of one scalar value. */
  function EncodeChar(c: char): (bs: seq<byte>)
    ensures 1 <= |bs| <= 4
    ensures (c as int < 0x80) <==> |bs| == 1
  {
    var n := c as int;
    if n < 0x80 then [n]
    else if n < 0x800 then [0xC0 + n / 64, 0x80 + n % 64]
    else if n < 0x10000 then [0xE0 + n / 4096, 0x80 + (n / 64) % 64, 0x80 + n % 64]
    else [0xF0 + n / 262144, 0x80 + (n / 4096) % 64, 0x80 + (n / 64) % 64, 0x80 + n % 64]
  }

  function Encode(s: string): (bs: seq<byte>)
    ensures |s| <= |bs| <= 4 * |s|
  {
    if s == [] then [] else EncodeChar(s[0]) + Encode(s[1..])
  }

  predicate IsContinuation(b: byte) { 0x80 <= b < 0xC0 }

  /** A scalar value: a code point that is not a surrogate. */
  predicate IsScalar(n: int) { 0 <= n < 0xD800 || 0xE000 <= n < 0x11_0000 }

  /**
   * The scalar value at the head of `bs` and the number of octets it takes,
   * or None when the head is not a well-formed UTF-8 sequence.
   */
  function DecodeChar(bs: seq<byte>): (r: Option<(char, nat)>)
    ensures r.Some? ==> 1 <= r.value.1 <= |bs| && r.value.1 <= 4
  {
    if |bs| == 0 then None
    else
      var b0: int := bs[0];
      if b0 < 0x80 then Some((b0 as char, 1))
      else if 0xC2 <= b0 < 0xE0 then
        if |bs| < 2 || !IsContinuation(bs[1]) then None
        else Some((((b0 - 0xC0) * 64 + (bs[1] as int - 0x80)) as char, 2))
      else if 0xE0 <= b0 < 0xF0 then
        if |bs| < 3 || !IsContinuation(bs[1]) || !IsContinuation(bs[2]) then None
        else
          var n := (b0 - 0xE0) * 4096 + (bs[1] as int - 0x80) * 64 + (bs[2] as int - 0x80);
          if n < 0x800 || !IsScalar(n) then None else Some((n as char, 3))
      else if 0xF0 <= b0 < 0xF5 then
        if |bs| < 4 || !IsContinuation(bs[1]) || !IsContinuation(bs[2]) || !IsContinuation(bs[3]) then None
        else
          var n := (b0 - 0xF0) * 262144 + (bs[1] as int - 0x80) * 4096 + (bs[2] as int - 0x80) * 64 + (bs[3] as int - 0x80);
          if n < 0x1_0000 || !IsScalar(n) then None else Some((n as char, 4))
      else None
  }

  /** Strict decoding: None exactly when some sequence is malformed. */
  function Decode(bs: seq<byte>): (r: Option<string>)
    ensures bs == [] ==> r == Some([])
    ensures r.Some? ==> |r.value| <= |bs| && (bs != [] ==> r.value != [])
    decreases |bs|
  {
    if bs == [] then Some([])
    else match DecodeChar(bs)
      case None => None
      case Some((c, k)) =>
        match Decode(bs[k..])
        case None => None
        case Some(rest) => Some([c] + rest)
  }

  /** Decoding the octets of one scalar value gives it back and consumes exactly those octets. */
  lemma DecodeEncodeChar(c: char, rest: seq<byte>)
    ensures DecodeChar(EncodeChar(c) + rest) == Some((c, |EncodeChar(c)|))
  {
    var n := c as int;
    if n < 0x80 {
    } else if n < 0x800 {
      DecodeTwo(c, rest);
    } else if n < 0x10000 {
      DecodeThree(c, rest);
    } else {
      DecodeFour(c, rest);
    }
  }

  lemma DecodeTwo(c: char, rest: seq<byte>)
    requires 0x80 <= c as int < 0x800
    ensures DecodeChar(EncodeChar(c) + rest) == Some((c, 2))
  {
    var n := c as int;
    var bs := EncodeChar(c) + rest;
    var hi, lo := n / 64, n % 64;
    assert n == hi * 64 + lo;
    assert bs[0] == 0xC0 + hi && bs[1] == 0x80 + lo;
  }

  lemma DecodeThree(c: char, rest: seq<byte>)
    requires 0x800 <= c as int < 0x10000
    ensures DecodeChar(EncodeChar(c) + rest) == Some((c, 3))
  {
    var n := c as int;
    var bs := EncodeChar(c) + rest;
    var q := n / 64;
    var a, b, d := q / 64, q % 64, n % 64;
    assert n == q * 64 + d;
    assert q == a * 64 + b;
    assert n / 4096 == a;
    assert n == a * 4096 + b * 64 + d;
    assert bs[0] == 0xE0 + a && bs[1] == 0x80 + b && bs[2] == 0x80 + d;
  }

  lemma DecodeFour(c: char, rest: seq<byte>)
    requires 0x10000 <= c as int
    ensures DecodeChar(EncodeChar(c) + rest) == Some((c, 4))
  {
    var n := c as int;
    var bs := EncodeChar(c) + rest;
    var q := n / 64;
    var p := q / 64;
    var a, b, e, d := p / 64, p % 64, q % 64, n % 64;
    assert n == q * 64 + d;
    assert q == p * 64 + e;
    assert p == a * 64 + b;
    assert n / 4096 == p;
    assert n / 262144 == a;
    assert n == a * 262144 + b * 4096 + e * 64 + d;
    assert bs[0] == 0xF0 + a && bs[1] == 0x80 + b && bs[2] == 0x80 + e && bs[3] == 0x80 + d;
  }

  /** Round trip: strict decoding inverts encoding for every string. */
  lemma {:induction false} DecodeEncode(s: string)
    ensures Decode(Encode(s)) == Some(s)
  {
    if s != [] {
      var head := EncodeChar(s[0]);
      var bs := Encode(s);
      assert bs == head + Encode(s[1..]);
      DecodeEncodeChar(s[0], Encode(s[1..]));
      assert bs[|head|..] == Encode(s[1..]);
      DecodeEncode(s[1..]);
      assert [s[0]] + s[1..] == s;
    }
  }

  /** Re-encoding the scalar value at the head of `bs` gives back the octets it was read from. */
  lemma EncodeDecodeChar(bs: seq<byte>)
    requires DecodeChar(bs).Some?
    ensures EncodeChar(DecodeChar(bs).value.0) == bs[..DecodeChar(bs).value.1]
  {
    var b0: int := bs[0];
    if 0xC2 <= b0 < 0xE0 {
      var x, z := b0 - 0xC0, bs[1] as int - 0x80;
      EncodeTwo(x, z);
    } else if 0xE0 <= b0 < 0xF0 {
      var x, y, z := b0 - 0xE0, bs[1] as int - 0x80, bs[2] as int - 0x80;
      EncodeThree(x, y, z);
    } else if 0xF0 <= b0 < 0xF5 {
      var w, x, y, z := b0 - 0xF0, bs[1] as int - 0x80, bs[2] as int - 0x80, bs[3] as int - 0x80;
      EncodeFour(w, x, y, z);
    }
  }

  lemma EncodeTwo(x: int, z: int)
    requires 2 <= x < 32 && 0 <= z < 64
    ensures EncodeChar((x * 64 + z) as char) == [0xC0 + x, 0x80 + z]
  {
    var n := x * 64 + z;
    assert n / 64 == x && n % 64 == z;
  }

  lemma EncodeThree(x: int, y: int, z: int)
    requires 0 <= x < 16 && 0 <= y < 64 && 0 <= z < 64
    requires IsScalar(x * 4096 + y * 64 + z) && x * 4096 + y * 64 + z >= 0x800
    ensures EncodeChar((x * 4096 + y * 64 + z) as char) == [0xE0 + x, 0x80 + y, 0x80 + z]
  {
    var n := x * 4096 + y * 64 + z;
    var q := x * 64 + y;
    assert n == q * 64 + z;
    assert n / 64 == q && n % 64 == z;
    assert q / 64 == x && q % 64 == y;
    assert n / 4096 == x;
  }

  lemma EncodeFour(w: int, x: int, y: int, z: int)
    requires 0 <= w < 5 && 0 <= x < 64 && 0 <= y < 64 && 0 <= z < 64
    requires IsScalar(w * 262144 + x * 4096 + y * 64 + z) && w * 262144 + x * 4096 + y * 64 + z >= 0x1_0000
    ensures EncodeChar((w * 262144 + x * 4096 + y * 64 + z) as char) == [0xF0 + w, 0x80 + x, 0x80 + y, 0x80 + z]
  {
    var n := w * 262144 + x * 4096 + y * 64 + z;
    var p := w * 64 + x;
    var q := p * 64 + y;
    assert n == q * 64 + z;
    assert n / 64 == q && n % 64 == z;
    assert q / 64 == p && q % 64 == y;
    assert p / 64 == w && p % 64 == x;
    assert n / 4096 == p;
    assert n / 262144 == w;
  }

  /**
   * The converse round trip: whatever strict decoding accepts is the encoding
   * of what it decodes to, so no two octet strings decode to the same text.
   */
  lemma {:induction false} EncodeDecode(bs: seq<byte>)
    requires Decode(bs).Some?
    ensures Encode(Decode(bs).value) == bs
    decreases |bs|
  {
    if bs != [] {
      var (c, k) := DecodeChar(bs).value;
      var rest := Decode(bs[k..]).value;
      EncodeDecodeChar(bs);
      EncodeDecode(bs[k..]);
      var s := [c] + rest;
      assert Decode(bs).value == s;
      assert s[0] == c && s[1..] == rest;
      calc {
        Encode(s);
        EncodeChar(c) + Encode(rest);
        bs[..k] + bs[k..];
      }
      assert bs[..k] + bs[k..] == bs;
    }
  }
}

=== FILE: utils.dfy ===
/**
 * `get_user_from_session` of chat/utils.py. Unlike the views it looks the
 * user up by the raw session value, not by its first element.
 */
module Utils {
  import opened Results
  import opened Errors
  import opened Models
  import opened Sessions
  import Tokens

  /**
   * No entry, or an empty one, gives None; otherwise the one user whose
   * token equals the value as text, or None when nobody's does. Two such
   * users raise, since only DoesNotExist is caught. Nothing is written.
   */
  function GetUserFromSession(db: Db, session: Session): (r: Result<Option<User>, Error>)
    ensures session.None? || !Truthy(session.value) ==> r == Success(None)
    ensures r.Success? && r.value.Some? ==> r.value.value in db.users && r.value.value.token == AsText(session.value)
    ensures r.Success? && r.value.None? && session.Some? && Truthy(session.value) ==>
      forall i | 0 <= i < |db.users| :: db.users[i].token != AsText(session.value)
    ensures session.Some? && Truthy(session.value) && (exists i, j | 0 <= i < j < |db.users| ::
      db.users[i].token == AsText(session.value) && db.users[j].token == AsText(session.value))
      ==> r == Failure(MultipleObjectsReturned)
    ensures r.Failure? ==> r.error == MultipleObjectsReturned && exists i, j | 0 <= i < j < |db.users| ::
      db.users[i].token == AsText(session.value) && db.users[j].token == AsText(session.value)
  {
    if session.None? || !Truthy(session.value) then Success(None)
    else
      match UserWithToken(db, AsText(session.value))
      case NotFound => Success(None)
      case Found(u) => Success(Some(u))
      case Multiple => Failure(MultipleObjectsReturned)
  }

  /** The user holding a token no one else holds is found from a session storing it as a string. */
  lemma TextSessionFindsHolder(db: Db, i: nat)
    requires i < |db.users| && db.users[i].token != []
    requires forall j | 0 <= j < |db.users| && j != i :: db.users[j].token != db.users[i].token
    ensures GetUserFromSession(db, Some(Text(db.users[i].token))) == Success(Some(db.users[i]))
  {
    var t := db.users[i].token;
    var r := UserWithToken(db, t);
    assert r.Found?;
    var k :| 0 <= k < |db.users| && db.users[k] == r.row && r.row.token == t;
    assert k == i;
  }

  /** Every token in the table is a generated one or the column default. */
  ghost predicate TokensWellFormed(db: Db) {
    forall i | 0 <= i < |db.users| :: Tokens.IsToken(db.users[i].token) || db.users[i].token == Default
  }

  /**
   * The list login stores never equals a stored token as text, so the
   * session login creates never resolves here.
   */
  lemma LoginSessionNeverResolves(db: Db, items: seq<string>)
    requires TokensWellFormed(db)
    ensures GetUserFromSession(db, Some(Tokens(items))).Success?
    ensures GetUserFromSession(db, Some(Tokens(items))).value.None?
  {
    var text := AsText(Tokens(items));
    forall i | 0 <= i < |db.users| ensures db.users[i].token != text {
      var t := db.users[i].token;
      assert text[0] == '[';
      if Tokens.IsToken(t) {
        assert Tokens.IsTokenChar(t[0]) && t[0] != text[0];
      } else {
        assert t == Default && t[0] != text[0];
      }
    }
  }
}
